=== FILE: README.md ===
# kioskC2 message-bus bookkeeping, modelled in Dafny

kioskC2 is a browser command-and-control system built from four tiers that
talk over a NATS message bus. The implant runs inside a web page. The
transport tier holds the implant connections. The manager tier correlates
each operator operation with its implant response. The execution tier runs
plugin methods.

This project models the bookkeeping around the bus as pure state transitions
over maps and sequences. It covers:

- the transport tier's connection registry: the current version with
  heartbeats and the older version;
- the transport tier's routing of outgoing messages and its queueing of
  incoming operations;
- the manager tier's correlation table, its per-client bridge and the
  supervisor that keeps one bridge per implant;
- the execution tier's dispatcher, its supervisor's table of dispatchers,
  the message loops left running beside it, and the plugin loader with its
  method index;
- the remote-command primitives' response classification;
- the page-serving browser's header filter;
- both versions of the implant's communication layer: plugin registration and
  selection, the callback table, and message dispatch.

Clock readings, parse results, fresh ids, task ids and what importing a module
yields are parameters. Each timed wait, cancellation and task completion is an
explicit event.

Module layout, one module per source file plus shared helpers:

| module | file | models |
|---|---|---|
| `Common` | common.dfy | JSON values, Python and JavaScript truthiness, string helpers, publications |
| `Subjects` | subjects.dfy | bus subjects as token lists, the bus's wildcard matching |
| `Registry` | registry.dfy | get-or-create and add-if-absent on an id-keyed map |
| `TransportRegistry` | transport_registry.dfy | `clients/c2/clients/base.py` |
| `LegacyRegistry` | legacy_registry.dfy | `api/clients/base.py` |
| `NatsRouting` | nats_routing.dfy | `clients/c2/clients/nats_client.py` |
| `CallbackTable` | callback_table.dfy | `manager/c2/manager/callback_manager.py` |
| `ManagerBridge` | manager_bridge.dfy | `manager/c2/manager/client.py` |
| `CommandPrimitives` | command_primitives.dfy | `plugins/c2/plugins/internal/methods.py` |
| `PluginDispatcher` | plugin_dispatcher.dfy | `plugins/c2/plugins/internal/client_manager.py` |
| `OrderedDict` | ordered_dict.dfy | Python `dict` assignment, with insertion order kept |
| `PluginLoader` | plugin_loader.dfy | `plugins/c2/plugins/internal/loader.py` |
| `HeaderFilter` | header_filter.dfy | `website-bundler/c2/bundler/cors_bypass.py` |
| `ImplantComm` | implant_comm.dfy | what both `communication_plugin.js` versions share |
| `PageComm` | page_comm.dfy | `clients/c2/clients/page/src/communication_plugin.js` |
| `LegacyPageComm` | legacy_page_comm.dfy | `page/src/communication_plugin.js` |
| `BusWiring` | bus_wiring.dfy | which subscription of one tier receives which publication of another |

Three behaviours of the code that are easy to misread:

- The heartbeat sweep treats a client as silent once `now - last_heartbeat` reaches the 10-unit timeout, not only once it exceeds it (`clients/c2/clients/base.py:82`).
- `prepare_response` sends the immediate reply first and the queued messages after it (`clients/c2/clients/base.py:53`).
- No supervisor reacts to the disconnect callback. Pending operations are answered with `reconnection` only when a new connect signal replaces the bridge (`manager/c2/manager/client.py:126-130`).

The source has seven defects that lose or duplicate messages (see "Findings").
For each one the model has two members:

- a member suffixed `AsWritten` that keeps the source's behaviour and is shown to lose or duplicate the message;
- the corrected member, which the rest of the model uses.

## Model

| member | source | states |
|---|---|---|
| TransportRegistry.TimeoutIsFiveIntervals | clients/c2/clients/base.py:13-14 | The heartbeat timeout is five heartbeat intervals of 2, i.e. 10. |
| TransportRegistry.NewClient | clients/c2/clients/base.py:36-40 | A new client is connected with an empty queue. It becomes silent exactly one full timeout after its creation time. |
| TransportRegistry.HandleHeartbeat | clients/c2/clients/base.py:42-44 | A heartbeat makes the client connected and restarts its silence window at `now`. Its id and queue are untouched. |
| TransportRegistry.EnqueueOnClient | clients/c2/clients/base.py:60-61 | The message is appended after the queued ones. Earlier messages keep their order, and status and heartbeat are unchanged. |
| TransportRegistry.GetClient | clients/c2/clients/base.py:108-113 | An existing client is returned as stored. A new one is created only for an unknown id. Afterwards the id is present and no other entry changed. |
| TransportRegistry.AddClient | clients/c2/clients/base.py:103-106 | An existing entry is never overwritten; an absent id gets the client. |
| TransportRegistry.AddedClientIsFound | clients/c2/clients/base.py:103-113 | A client added under a new id is exactly what the next `get_client` of that id returns, with no new client created; adding under a known id changes nothing. |
| TransportRegistry.Enqueue | clients/c2/clients/base.py:115-117 | An unknown id first gets a new client. The id's queue then gains the message at its end, and no other client changes. |
| TransportRegistry.RegistryHeartbeat | clients/c2/clients/base.py:119-121 | An unknown id first gets a new client. The id becomes connected with heartbeat `now` and its queue is kept, and no other client changes. |
| TransportRegistry.Sweep | clients/c2/clients/base.py:79-90 | One sweep leaves non-silent clients untouched and marks silent ones disconnected. The callback fires exactly for silent clients that were still connected. |
| TransportRegistry.SweepNotifiesOncePerTransition | clients/c2/clients/base.py:84-88 | Two sweeps with no heartbeat between them never notify the same client twice. |
| TransportRegistry.HeartbeatKeepsClientAlive | clients/c2/clients/base.py:81-88 | A sweep less than a timeout after a heartbeat leaves the client connected and does not notify it. |
| TransportRegistry.SilentClientCaughtWithinTwelve | clients/c2/clients/base.py:79-90 | Sweeps run every 2 units, the first no later than the deadline. Some sweep at least 10 and less than 12 units after a client's last heartbeat disconnects it. |
| TransportRegistry.HandleMessage | clients/c2/clients/base.py:125-133 | There is a reply iff the operation is `heartbeat`, and it is `heartbeat`/`pong` with the same id. Such a message records the heartbeat and is not forwarded. Every other message is forwarded unchanged, with the registry unchanged. No queue changes. |
| TransportRegistry.HeartbeatPayloadNotChecked | clients/c2/clients/base.py:126-130 | The `ping` check has no effect: any heartbeat payload gives the same reply, registry and forwarding as `ping`. |
| TransportRegistry.PrepareResponse | clients/c2/clients/base.py:46-58 | A payload that does not validate yields nothing. Otherwise the output is the reply, if any, followed by the whole queue in order. The queue is emptied and no other client changes. |
| TransportRegistry.QueuedMessagesFlushedOnNextTurn | clients/c2/clients/base.py:51-58 | A queued operator message goes out on the implant's next turn, after the reply and in queue order. A turn straight after sends back only its own reply. |
| LegacyRegistry.NewClient | api/clients/base.py:20-23 | A new client is `connected` with an empty queue. |
| LegacyRegistry.EnqueueOnClient | api/clients/base.py:39-40 | The message is appended after the queued ones, and earlier messages keep their order. |
| LegacyRegistry.GetClient | api/clients/base.py:55-60 | An existing entry is returned as stored, and a new one is created only for an unknown id. |
| LegacyRegistry.AddClient | api/clients/base.py:50-53 | An existing entry for the same id is never overwritten. |
| LegacyRegistry.AddedClientIsFound | api/clients/base.py:50-60 | A client added under a new id is what the next `get_client` of that id returns; adding under a known id changes nothing. |
| LegacyRegistry.Enqueue | api/clients/base.py:62-64 | An unknown id first gets a new client, then the message is appended to its queue. No other client changes. |
| LegacyRegistry.HandleMessage | api/clients/base.py:68-75 | There is a reply iff the operation is `heartbeat`, and the reply is `heartbeat`/`pong`. |
| LegacyRegistry.PrepareResponse | api/clients/base.py:25-37 | An invalid payload yields nothing. A heartbeat yields `pong` followed by the queue, anything else only the queue. The queue is emptied. |
| LegacyRegistry.EnqueuedMessageFlushed | api/clients/base.py:30-37 | A message queued through the registry is the last thing sent on the client's next turn, and the queue is empty afterwards. |
| NatsRouting.SendMessage | clients/c2/clients/nats_client.py:9-15 | `connect` goes to `client.connect` carrying the client id. Every other message goes to `client.response.<id>.<msgId>` carrying the envelope. |
| NatsRouting.ResponseSubjectNamesClientAndOperation | clients/c2/clients/nats_client.py:15 | Splitting a response subject at its dots gives back the client id and the operation id. Responses for different clients or operations never share a subject. |
| NatsRouting.OperationSubjectRoundTrip | clients/c2/clients/nats_client.py:23 | Removing the prefix from `client.operations.<id>` recovers `id`. |
| NatsRouting.ReceiveStep | clients/c2/clients/nats_client.py:21-30 | An unparseable delivery leaves the registry unchanged. A parsed one is appended to the queue of the client named by its subject, and no other client changes. |
| NatsRouting.ReceiveAll | clients/c2/clients/nats_client.py:21-30 | The subscription loop drops no client, and every client named by a parsed delivery has an entry afterwards. |
| NatsRouting.ReceiveAllQueuesInArrivalOrder | clients/c2/clients/nats_client.py:21-30 | After any sequence of deliveries, a client's queue is its old queue followed by exactly the parsed deliveries for it, in arrival order. |
| Subjects.LiteralMatchesOnlyItself | manager/c2/manager/client.py:44 | A subscription without wildcards receives exactly the subject equal to it. |
| Subjects.TrailingStarMatches | clients/c2/clients/nats_client.py:19 | `p.*` receives exactly the subjects that extend `p` by one token. |
| Subjects.SplitJoin | clients/c2/clients/nats_client.py:15 | Splitting a subject joined from dot-free tokens gives back the tokens. |
| Registry.GetOrCreate | clients/c2/clients/base.py:108-113 | Get-or-create: it creates only when the id is absent and never touches other entries. |
| Registry.GetOrCreateIdempotent | clients/c2/clients/base.py:108-113 | Asking again for the same id changes nothing and returns the same client, whatever new client is offered. |
| Registry.AddIfAbsent | clients/c2/clients/base.py:103-106 | Add-if-absent never overwrites. |
| Registry.AddIfAbsentIsGetOrCreate | clients/c2/clients/base.py:103-113 | Adding leaves the same table as get-or-create with the same client, and adding again under the same id changes nothing. |
| CallbackTable.Create | manager/c2/manager/callback_manager.py:15-18 | Installs an unset entry for the id. Other entries are unchanged. |
| CallbackTable.Trigger | manager/c2/manager/callback_manager.py:20-28 | An unknown id is logged and ignored. A known id ends up set, and re-triggering a set entry is logged as such and changes nothing. |
| CallbackTable.Wait | manager/c2/manager/callback_manager.py:30-35 | The wait creates the entry only when it is absent. An existing entry, set or not, is kept. |
| CallbackTable.TriggerBeforeWaitIsKept | manager/c2/manager/callback_manager.py:31-32 | A response that arrives between creation and the wait is not lost. |
| CallbackTable.Resolve | manager/c2/manager/callback_manager.py:42-50 | The wait ends delivered iff its entry was set, timed out iff the entry was unset, and failed iff the entry was missing. The entry is removed in every case. |
| CallbackTable.LateTriggerIsNoop | manager/c2/manager/callback_manager.py:20-23 | After resolution, a late trigger is an unknown-id no-op. |
| CallbackTable.ExactlyOneOutcome | manager/c2/manager/callback_manager.py:42-50 | A wait that sees its response is delivered. One that does not see it times out. Resolving the same id again finds nothing. |
| ManagerBridge.WaitKeySeparatesOperations | manager/c2/manager/client.py:37-38 | The wait keys `<client>.<a>` and `<client>.<b>` are equal iff `a == b`. |
| ManagerBridge.PendingOpsHasKey | manager/c2/manager/client.py:38 | An operation is pending on a bridge iff its wait key is in the bridge's table. |
| ManagerBridge.DeadlineTextNamesTheTimeout | manager/c2/manager/client.py:28 | The error text of both synthetic envelopes names the 10-unit deadline. |
| ManagerBridge.TimeoutMessage | manager/c2/manager/client.py:25-28 | The timeout envelope has operation `timeout`, the given id, and data that is exactly `{"error": <deadline text>}`. |
| ManagerBridge.ReconnectionMessage | manager/c2/manager/client.py:31-34 | The reconnect envelope has operation `reconnection`, the given id, and the same data as the timeout envelope. |
| ManagerBridge.HandleOperation | manager/c2/manager/client.py:42-61 | An operation that fails the `Message` schema of `manager/c2/manager/base.py:4-7` is skipped: one that does not parse, or whose `data` is not an object. Otherwise the operation's wait is registered, and is pending, before the operation is forwarded verbatim to `client.operations.<id>`. |
| ManagerBridge.HandleResponseAsWritten | manager/c2/manager/client.py:63-81 | A response that fails the schema (no parse, or non-object `data`) is skipped. A valid one triggers its wait, then is republished unchanged on the client-wide `manager.responses.<id>`. |
| ManagerBridge.HandleResponse | manager/c2/manager/client.py:63-81 | Corrected step. A response that fails the schema (no parse, or non-object `data`) is skipped, with nothing triggered or published. A valid one triggers its own wait: the table keeps its keys and that entry becomes set. It is then republished on its operation's subject. |
| ManagerBridge.ResolveWaitAsWritten | manager/c2/manager/client.py:40 | As written, a resolved wait removes its entry and publishes nothing, even on timeout. |
| ManagerBridge.ResolveWait | manager/c2/manager/callback_manager.py:42-50 | Corrected resolution. At most one publication, and exactly one iff the wait was pending and unset; that one is the `timeout` envelope on the operation's subject. The operation is no longer pending. |
| ManagerBridge.TeardownAsWritten | manager/c2/manager/client.py:99 | As written, teardown publishes nothing. |
| ManagerBridge.Teardown | manager/c2/manager/callback_manager.py:52-56 | Corrected teardown publishes exactly one `reconnection` envelope per pending operation, on its subject, and nothing else. |
| ManagerBridge.NonObjectReplyTimesOut | manager/c2/manager/client.py:67-72 | A reply whose `data` is not an object is skipped by the bridge without triggering the wait, so the operation it answers is still reported as `timeout`. |
| ManagerBridge.UnansweredOperationTimesOutOnce | manager/c2/manager/client.py:37-40 | A valid operation answered before the deadline is not reported. An unanswered one is reported as `timeout` exactly once. The as-written bridge reports neither. |
| ManagerBridge.StartClient | manager/c2/manager/client.py:114-116 | Installs a fresh bridge with nothing pending under the id. Other ids are untouched. |
| ManagerBridge.StartThenRemove | manager/c2/manager/client.py:114-124 | Starting keeps every bridge under its own id. Removing a bridge that was just started publishes nothing and leaves the other bridges as they were. |
| ManagerBridge.RemoveClient | manager/c2/manager/client.py:118-124 | An unknown id changes nothing. Otherwise exactly that key is deleted and its bridge is torn down. |
| ManagerBridge.ConnectClient | manager/c2/manager/client.py:126-130 | Any existing bridge for the id is torn down before a fresh one is stored. Other ids are untouched, and every bridge stays filed under its own id. |
| ManagerBridge.ReconnectSupersedesPendingWaits | manager/c2/manager/client.py:126-130 | A reconnect answers every operation pending on the old bridge with `reconnection`, and the new bridge has nothing pending. |
| ManagerBridge.SupersededWaitStillTimesOut | manager/c2/manager/callback_manager.py:30-50 | For an unanswered operation of a replaced bridge, the reconnect publishes `reconnection`, and the old bridge's still-running timer would then publish `timeout` through the corrected resolution. The fresh bridge does not hold the operation. |
| ManagerBridge.RepeatedConnectsLeaveOneFreshBridge | manager/c2/manager/client.py:126-130 | A second connect for the same id leaves the same map as the first. |
| BusWiring.PrimitiveOperationsReachTheirBridge | manager/c2/manager/client.py:44 | An operation a primitive issues for client `c` is received by the bridge of `other` iff `c == other`. |
| BusWiring.BridgeOperationsReachTransport | manager/c2/manager/client.py:58 | Operations a bridge forwards are received by the transport tier's `client.operations.*` and routed back to the same client. |
| BusWiring.ResponsesNeverReachBridgeAsWritten | manager/c2/manager/client.py:65 | No response the transport tier publishes is received by the as-written bridge subscription. |
| BusWiring.ResponsesReachOwnBridge | clients/c2/clients/nats_client.py:15 | The corrected subscription of bridge `id` receives a transport response iff it belongs to `id`. |
| BusWiring.RepublishedResponseMissesWaiterAsWritten | manager/c2/manager/client.py:78 | The as-written republication is never received by a waiting primitive. |
| BusWiring.RepublishedResponseReachesItsWaiter | plugins/c2/plugins/internal/methods.py:28 | A primitive waiting on `(client, op)` receives the corrected republication iff it answers that operation of that client. |
| BusWiring.PrimitivesHearTheirResponse | plugins/c2/plugins/internal/methods.py:27-55 | The subject `eval_js` and `load_plugin` listen on receives the corrected bridge's republication iff it is the response to their own operation of their own client. |
| CommandPrimitives.Classify | plugins/c2/plugins/internal/methods.py:27-37 | A response that fails the `Message` schema of lines 16-19 (no parse, or `data` that is not an object) is Malformed. Otherwise `reconnection` and `timeout` become ReconnectionError and TimeoutError, each carrying `data.error`. Any other tag yields `data` unchanged, which is always an object. Silence and invalid messages are distinct failures. |
| CommandPrimitives.EvalJs | plugins/c2/plugins/internal/methods.py:39-48 | Publishes `eval_js` with data exactly `{"code": code}` under the fresh id and waits on that id's subject. A truthy `error` raises JSExecutionError, otherwise `result` is returned. Transport failures pass through. |
| CommandPrimitives.LoadPlugin | plugins/c2/plugins/internal/methods.py:50-55 | Publishes `load_plugin` with data exactly `{"url": url}`. It succeeds iff classification succeeds and discards the data; failures pass through unchanged. |
| CommandPrimitives.EvalJsReturnsResult | plugins/c2/plugins/internal/methods.py:39-48 | A reply whose data is `{"result": v}` makes `eval_js` return exactly `v`. |
| CommandPrimitives.EvalJsReportsScriptError | plugins/c2/plugins/internal/methods.py:45-46 | A reply whose `error` is truthy makes `eval_js` raise JSExecutionError carrying that error. |
| CommandPrimitives.StringDataReplyIsMalformed | plugins/c2/plugins/internal/methods.py:16-19 | A reply whose `data` is a string fails validation, so `eval_js` raises rather than returning it. |
| CommandPrimitives.LoadPluginIgnoresData | plugins/c2/plugins/internal/methods.py:50-55 | Every valid reply other than `reconnection` or `timeout` makes `load_plugin` succeed, whatever object its data holds. |
| CommandPrimitives.ReconnectionAndTimeoutAreDistinct | plugins/c2/plugins/internal/methods.py:32-35 | The two synthetic envelopes classify as different failures, and neither as a value. |
| PluginDispatcher.RunMethodAsWritten | plugins/c2/plugins/internal/client_manager.py:21-22 | As written, an unknown operation raises while its `error` reply is being built, so the exception escapes and no reply exists. Otherwise it agrees with the corrected step. |
| PluginDispatcher.UnknownOperationReplyInvalidAsWritten | plugins/c2/plugins/internal/classes.py:8 | The reply line 22 builds never satisfies the message schema's required `client_id`, while the corrected reply to a valid request does. |
| PluginDispatcher.RunMethod | plugins/c2/plugins/internal/client_manager.py:19-33 | Unknown operation gives `error` with the "Unknown operation" text. A return gives `result` with the value, a cancellation gives `reconnect` with empty data, and a raise escapes. Every reply keeps the request's id and client id and is valid for a valid request. |
| PluginDispatcher.HandleMessage | plugins/c2/plugins/internal/client_manager.py:35-42 | Handling a message tracks exactly one new task, at the end, and records the message that task's wrapper runs. Each task stays listed once, with exactly the listed tasks holding a request. |
| PluginDispatcher.RemoveFirst | plugins/c2/plugins/internal/client_manager.py:44-45 | Removal takes out exactly one occurrence of a tracked task; an untracked one leaves the list unchanged. |
| PluginDispatcher.RemoveFirstAppended | plugins/c2/plugins/internal/client_manager.py:42-45 | Removing a task that was just appended to a list not holding it gives the list back. |
| PluginDispatcher.RemoveFirstKeepsDistinct | plugins/c2/plugins/internal/client_manager.py:44-45 | On a list without duplicates, removal leaves the task absent and the list still without duplicates. |
| PluginDispatcher.Finish | plugins/c2/plugins/internal/client_manager.py:37-47 | A task publishes its reply iff `run_method` produced one, to `plugin.response.<client>.<id>` with the id of the request that task was created for. An escaping exception publishes nothing. Either way the task leaves the tracked multiset once and its request is forgotten. |
| PluginDispatcher.Complete | plugins/c2/plugins/internal/client_manager.py:37-47 | With the corrected `run_method` run on the task's own request, a completed task publishes exactly one reply, iff the method produced one, to `plugin.response.<client>.<id>` for that request's id. It leaves the tracked multiset. |
| PluginDispatcher.CompleteAsWritten | plugins/c2/plugins/internal/client_manager.py:21-22 | As written, a task for an unknown operation publishes nothing. It is removed like any other, and known operations behave as corrected. |
| PluginDispatcher.UnknownOperationUnansweredAsWritten | plugins/c2/plugins/internal/client_manager.py:37-39 | As written, a request for an unknown operation gets no response, so its caller runs into its deadline. Corrected, it gets one `error` response on its own subject naming the operation. |
| PluginDispatcher.HandledTaskRemovedOnce | plugins/c2/plugins/internal/client_manager.py:35-47 | Handling a message as a fresh task and then completing that task gives the dispatcher back unchanged. The only publication is the corrected reply to that message, on its own response subject. |
| PluginDispatcher.CompletedTaskNoLongerTracked | plugins/c2/plugins/internal/client_manager.py:44-47 | A completed task is neither listed nor holds a request, and each remaining task is listed once with its request. |
| PluginDispatcher.Teardown | plugins/c2/plugins/internal/client_manager.py:66-69 | Teardown cancels exactly the tracked tasks. |
| PluginDispatcher.TeardownAnswersReconnect | plugins/c2/plugins/internal/client_manager.py:30-39 | Each cancelled in-flight task whose request names a known method is answered once with `reconnect`. The reply carries that request's id and client id and goes to that request's `plugin.response.<client>.<id>`. The task is then untracked. |
| PluginDispatcher.NewDispatcher | plugins/c2/plugins/internal/client_manager.py:15 | A new dispatcher tracks no task and is filed under its client id. |
| PluginDispatcher.TeardownClient | plugins/c2/plugins/internal/client_manager.py:78-86 | An unknown id changes nothing. Otherwise that dispatcher's tasks are cancelled and exactly its key is deleted. |
| PluginDispatcher.TeardownClientIdempotent | plugins/c2/plugins/internal/client_manager.py:78-86 | A second teardown of the same id finds nothing and cancels nothing. |
| PluginDispatcher.ConnectClient | plugins/c2/plugins/internal/client_manager.py:88-95 | Exactly the old dispatcher's tasks are cancelled, and a fresh dispatcher is installed under the id. Other ids are untouched, and every dispatcher stays filed under its own id. |
| PluginDispatcher.ReconnectAnswersOldTasks | plugins/c2/plugins/internal/client_manager.py:30-39 | A reconnect cancels every task of the old dispatcher. Each answers the request it was running with `reconnect`, under that request's id and on its response subject. The fresh dispatcher tracks nothing. |
| PluginDispatcher.RepeatedConnectCancelsNothing | plugins/c2/plugins/internal/client_manager.py:88-95 | A second connect of the same id leaves the same table and cancels nothing. |
| PluginDispatcher.ConnectAsWritten | plugins/c2/plugins/internal/client_manager.py:17 | As written, a connect adds a message loop for the id and cancels none, because `teardown` never cancels `handle_messages_task`. |
| PluginDispatcher.Connect | plugins/c2/plugins/internal/client_manager.py:66-69 | Corrected, the old loop is cancelled with the old tasks, so the id has exactly one loop afterwards. Other ids keep theirs. |
| PluginDispatcher.ConnectKeepsOneLoopPerClient | plugins/c2/plugins/internal/client_manager.py:88-95 | The corrected connect keeps exactly one running loop per connected id and none for other ids. |
| PluginDispatcher.ReconnectDuplicatesLoopAsWritten | plugins/c2/plugins/internal/client_manager.py:17 | As written, reconnecting a connected id leaves two loops subscribed to `plugin.run.<id>`, so each later invocation for it runs twice. |
| OrderedDict.Put | plugins/c2/plugins/internal/loader.py:44 | Assignment: the key then maps to the value and other keys are unchanged. An existing key keeps its place; a new key is appended. |
| OrderedDict.PutKeepsKeysUnique | plugins/c2/plugins/internal/loader.py:44 | Assignment keeps keys unique. |
| OrderedDict.LookupFindsEntry | plugins/c2/plugins/internal/loader.py:44 | With unique keys, a lookup yields `v` iff `(k, v)` is an entry. |
| PluginLoader.LoadPlugin | plugins/c2/plugins/internal/loader.py:24-32 | Yields nothing iff no attribute is a proper plugin subclass. Otherwise it yields the first such attribute's class. |
| PluginLoader.LoadPluginPicksFirstName | plugins/c2/plugins/internal/loader.py:27-32 | With attributes in `dir` order, the chosen class is bound to the alphabetically first plugin-valued name. |
| PluginLoader.ModulePath | plugins/c2/plugins/internal/loader.py:39 | The module path is the relative path minus its last three characters, with every `/` replaced by `.`. |
| PluginLoader.ModulePathOfFile | plugins/c2/plugins/internal/loader.py:39 | `d1/.../dn/stem.py` maps to the dotted name `d1. ... .dn.stem`, whose dot-split gives back the directories and stem. |
| PluginLoader.InternalModulesSkipped | plugins/c2/plugins/internal/loader.py:40-41 | Every module path containing `internal` anywhere is skipped. |
| PluginLoader.CandidateOf | plugins/c2/plugins/internal/loader.py:37-42 | A file contributes only if it ends in `.py`, is not a dunder file and its module path avoids `internal`; it then contributes that module's chosen plugin. |
| PluginLoader.Register | plugins/c2/plugins/internal/loader.py:43-44 | The plugin table has unique names. |
| PluginLoader.RegisterFiledByName | plugins/c2/plugins/internal/loader.py:43-44 | Every plugin the walk registers can be looked up only under its own `name`. |
| PluginLoader.LoadPlugins | plugins/c2/plugins/internal/loader.py:34-48 | The table has one entry per name, and each plugin is filed under its own `name`. Which file provides each name is LastProviderWins. |
| PluginLoader.LastProviderWins | plugins/c2/plugins/internal/loader.py:34-48 | A name maps to `p` iff `p` is the plugin of the last walked file that provides that name; a later file shadows an earlier one. |
| PluginLoader.PluginFiledUnderItsName | plugins/c2/plugins/internal/loader.py:43-44 | Every table entry is filed under its plugin's own name. |
| PluginLoader.LoadMethods | plugins/c2/plugins/internal/loader.py:50-56 | The index has unique keys, and every entry is a public function. Completeness and soundness are MethodsComplete and MethodsSound. |
| PluginLoader.MethodsComplete | plugins/c2/plugins/internal/loader.py:50-56 | Every public function of every loaded plugin is indexed under `<plugin>.<function>`. |
| PluginLoader.MethodsSound | plugins/c2/plugins/internal/loader.py:50-56 | Every index entry is a public function of a loaded plugin, paired with that plugin and filed under `<its table name>.<function name>`. |
| PluginLoader.PrivateMembersNotIndexed | plugins/c2/plugins/internal/loader.py:55 | A member whose name starts with `_` is never reachable through the index, for plugin names without dots. |
| HeaderFilter.Lower | website-bundler/c2/bundler/cors_bypass.py:23 | Lower-casing keeps the length and maps each ASCII capital to its small letter. |
| HeaderFilter.LowerIdempotent | website-bundler/c2/bundler/cors_bypass.py:23 | Lower-casing twice is lower-casing once. |
| HeaderFilter.CleanHeaders | website-bundler/c2/bundler/cors_bypass.py:19-24 | A header survives iff it was sent and its lower-cased name is not on the list. Survivors keep their spelling and value, so the output is a subset of the input. |
| HeaderFilter.CleanHeadersIdempotent | website-bundler/c2/bundler/cors_bypass.py:19-24 | Filtering twice is filtering once. |
| HeaderFilter.RemovalIgnoresCase | website-bundler/c2/bundler/cors_bypass.py:23 | Two names differing only in ASCII case are both kept or both removed. |
| HeaderFilter.ListedNamesNeverSurvive | website-bundler/c2/bundler/cors_bypass.py:3-24 | No surviving name is on the list in any capitalisation. |
| ImplantComm.RegisterPlugin | clients/c2/clients/page/src/communication_plugin.js:23-31 | Registration succeeds iff a proper subclass of the base class is given, which is then appended. `undefined` and `null` throw a TypeError when `plugin.name` is read. Every other value throws the fixed error. |
| ImplantComm.RegistrationKeepsOnlySubclasses | clients/c2/clients/page/src/communication_plugin.js:26-30 | Registration keeps every registered plugin a proper subclass. |
| ImplantComm.FirstConstructible | page/src/communication_plugin.js:32-42 | Yields nothing iff no plugin constructs. Otherwise it yields a constructible plugin at an index with none constructible before it. |
| ImplantComm.RegisterMessageCallback | clients/c2/clients/page/src/communication_plugin.js:111-116 | The callback is appended to its operation's list, which is created on first use. Every other operation's list is unchanged. |
| ImplantComm.InvocationsFor | clients/c2/clients/page/src/communication_plugin.js:75-81 | An addressed message calls each callback of its operation, in registration order, with the message's `data`. |
| ImplantComm.RegisteredCallbackRunsLast | clients/c2/clients/page/src/communication_plugin.js:111-116 | A newly registered callback runs after the earlier ones on every later message of its operation. |
| ImplantComm.OtherOperationsUnaffected | clients/c2/clients/page/src/communication_plugin.js:111-116 | Registering for one operation changes nothing for messages of another. |
| PageComm.FindPlugin | clients/c2/clients/page/src/communication_plugin.js:33-45 | The intended selection, with the comparator reading each plugin's own priority: it finds a plugin iff some registered plugin constructs, and the one found is registered and constructs. |
| PageComm.SortedSelectionSound | clients/c2/clients/page/src/communication_plugin.js:33-45 | Sorting by priority neither adds nor loses a constructible plugin, so the selection after the sort finds one iff one is registered. |
| PageComm.FindPluginAsWritten | clients/c2/clients/page/src/communication_plugin.js:33-45 | As written, selection is the first constructible plugin in registration order. |
| PageComm.PriorityIgnoredAsWritten | clients/c2/clients/page/src/communication_plugin.js:34 | With XHR (5) registered before WebSocket (10), the as-written selection picks XHR and the intended selection picks WebSocket. |
| PageComm.SortByPriority | clients/c2/clients/page/src/communication_plugin.js:34 | The intended sort orders by descending priority and is a permutation. |
| PageComm.FindPluginPicksHighestPriority | clients/c2/clients/page/src/communication_plugin.js:33-45 | Intended selection finds a plugin iff one constructs. The one found is registered, constructs, and has the highest priority among constructible plugins. |
| PageComm.Establish | clients/c2/clients/page/src/communication_plugin.js:47-96 | Uses the corrected priority selection: as written, registration order is kept and the pick is FindPluginAsWritten's. The list is permuted and the callbacks are kept. Failure throws a TypeError and sends nothing. Success binds send and sends the connect message through the chosen plugin. |
| PageComm.Send | clients/c2/clients/page/src/communication_plugin.js:98-109 | Never throws. It sends exactly when send is bound and a plugin is active, through that plugin. |
| PageComm.EstablishThenSend | clients/c2/clients/page/src/communication_plugin.js:85-109 | After a successful establishment, the connect message and every later send go through the plugin the intended selection chose. |
| PageComm.Teardown | clients/c2/clients/page/src/communication_plugin.js:118-123 | Without an active plugin it throws and changes nothing. Otherwise it clears the plugin and send and keeps the callbacks. |
| PageComm.NoSendAfterTeardown | clients/c2/clients/page/src/communication_plugin.js:98-102 | After teardown nothing is sent. |
| PageComm.TeardownKeepsCallbacks | clients/c2/clients/page/src/communication_plugin.js:118-123 | Callbacks registered before a teardown remain, and later registrations append to them. |
| PageComm.Receive | clients/c2/clients/page/src/communication_plugin.js:54-83 | Only a string that parses to an array is dispatched, through the batch loop. Non-strings, parse failures and parsed strings dispatch nothing. A parsed object, number, boolean or null is not iterable, so the handler ends with a TypeError before any callback runs. |
| PageComm.DispatchBatch | clients/c2/clients/page/src/communication_plugin.js:65-82 | A batch whose first message has no operation dispatches nothing. Otherwise the first message's callbacks run first, in registration order. |
| PageComm.FirstUnaddressed | clients/c2/clients/page/src/communication_plugin.js:71-74 | Gives the index of the first message without an operation, or the batch length; every earlier message is addressed. |
| PageComm.BatchStopsAtFirstUnaddressed | clients/c2/clients/page/src/communication_plugin.js:71-74 | Messages from the first one without an operation onwards are never dispatched. |
| PageComm.BatchConcat | clients/c2/clients/page/src/communication_plugin.js:65-82 | Addressed messages are dispatched completely and in order before the rest of the batch. |
| PageComm.BatchInvocationsAreRegistered | clients/c2/clients/page/src/communication_plugin.js:75-81 | Every invocation is a registered callback of some addressed message's operation, given that message's data. |
| LegacyPageComm.FindPlugin | page/src/communication_plugin.js:32-42 | Older selection: the first constructible plugin in registration order. |
| LegacyPageComm.Establish | page/src/communication_plugin.js:44-78 | Failure throws "No communication plugin could be established" and leaves send as bound before. Success binds send to the chosen plugin. No message is sent. |
| LegacyPageComm.Send | page/src/communication_plugin.js:80-85 | Before establishment it throws and sends nothing. Otherwise it sends through the bound plugin. |
| LegacyPageComm.EstablishThenSend | page/src/communication_plugin.js:44-85 | After a successful establishment every send goes through the plugin `find_plugin` chose. After a failed one, sending behaves as before the attempt. |
| LegacyPageComm.Teardown | page/src/communication_plugin.js:94-99 | Without an active plugin it throws and changes nothing. Otherwise it resets the plugin, send and the whole callback table. |
| LegacyPageComm.TeardownForgetsEverything | page/src/communication_plugin.js:94-99 | After teardown a send throws, and no callback is left for any operation. |
| LegacyPageComm.Receive | page/src/communication_plugin.js:51-73 | An unparseable or unaddressed payload dispatches nothing. Otherwise the callbacks of its operation run in order with its `data`. |
| LegacyPageComm.OneMessageBatchAgrees | page/src/communication_plugin.js:51-73 | The newer layer dispatches a one-element array, without error, exactly as the older one dispatches the bare non-string message. |
| LegacyPageComm.ArrayPayloadIgnored | page/src/communication_plugin.js:60-66 | The older layer dispatches nothing for an array payload. |

## Left out

- Concurrency is not modelled: asyncio tasks, `gather`, cancellation propagation, event waits and `wait_for` races. Each loop body is a step function, and each deadline, cancellation or completion is an event parameter.
- Clocks, `token_hex` ids and pydantic or `JSON.parse` parsing are parameters: an integer `now`, caller-supplied ids, and an `Option` parse result.
- Bus I/O, subscribing and acknowledging are left out. Publications are returned as values, and subscription matching is the bus's documented token rule.
- `Client.update` is modelled as the identity, because every client class in the repository leaves it empty.
- Console and print logging is not modelled; only the control flow it sits in is.
- TransportRegistry.Sweep: the sweep loop's `sleep` and the order in which clients are visited are not modelled, since one pass touches each client independently.
- TransportRegistry.Sweep: one clock reading `now` serves the whole pass, while the source reads `time.time()` again for each client. A client whose silence reaches the timeout during the pass may be caught by the source and left for the next pass by the model.
- ManagerBridge.Teardown: the reconnection envelopes are a set, not a sequence, because the table's iteration order is not observable on the bus.
- ManagerBridge.ResolveWait: the corrected envelope carries the operation id rather than the `<client>.<op>` key that the source's lambda would pass.
- ManagerBridge.ResolveWait: the corrected `timeout` envelope goes to the operation's own subject `manager.responses.<id>.<op>`. The source's `timeout_callback` publishes on the client-wide `manager.responses.<id>` (`manager/c2/manager/client.py:29`), which no primitive listens on; this is the correction of the `client.py:78` finding.
- ManagerBridge.Teardown: each corrected `reconnection` envelope carries the operation id. In the source, `cleanup` hands `reconnect_callback` the whole table key `<client>.<op>` (`manager/c2/manager/callback_manager.py:53-56`), and that key would become the envelope's id.
- ManagerBridge.Teardown: the corrected envelopes go to each operation's own subject. The source's `reconnect_callback` publishes on the client-wide `manager.responses.<id>` (`manager/c2/manager/client.py:35`), which no primitive listens on; this is the correction of the `client.py:78` finding.
- ManagerBridge.ConnectClient: the replaced bridge's waits are dropped with it. In the source its wait tasks (`manager/c2/manager/callback_manager.py:34`) keep running after `terminate_client` (`manager/c2/manager/client.py:101-106`). The model takes the intended behaviour, in which they are cancelled; SupersededWaitStillTimesOut shows the extra `timeout` each one would publish otherwise.
- ManagerBridge.RemoveClient: for the same reason, the removed bridge's waits are dropped, not left running until their deadlines.
- ManagerBridge.ReconnectSupersedesPendingWaits: states only the `reconnection` envelope. With just the `client.py:40` and `client.py:99` corrections, an unanswered operation would also get a `timeout` envelope 10 units later (SupersededWaitStillTimesOut). The model cancels the timers, as the `client.py:99` finding's intended cell says.
- PluginDispatcher.TeardownAnswersReconnect: every cancellation is taken to reach the `except` of `run_method` (`plugins/c2/plugins/internal/client_manager.py:26-31`). A task cancelled before its first step never enters that `try` (lines 37-39), so it publishes nothing. A task cancelled while publishing its reply also publishes nothing. Neither case is modelled.
- PluginDispatcher.ReconnectAnswersOldTasks: the same two cancellation cases are not modelled.
- `register_client` (reflective file lookup), `BasePlugin.new` (file copies) and the process `main` wiring of each tier are not modelled.
- `bundle_page` and `preview_page` in `plugins/c2/plugins/internal/methods.py` (lines 57-77) are not modelled. Neither publishes an operation or waits on `manager.responses.<id>.<op>`. Each sends a `bundle` or `preview` request to `bundler.fetch` with `nc.request`, then reads the named page or screenshot from the `bundler` object store. That is bundler and object-store I/O.
- `handle_route` in `website-bundler/c2/bundler/cors_bypass.py` is browser I/O and is not modelled; only `clean_headers` is.
- HeaderFilter.Lower: ASCII letters only; Python's full Unicode lower-casing is not modelled.
- HeaderFilter.ListedNamesNeverSurvive: stated for arbitrary names; the literal instance `X-Frame-Options` is not stated separately.
- PluginLoader.LoadPlugins: Python's module import itself is the parameter `attrsOf`; import errors and import side effects are not modelled.
- PluginLoader.PrivateMembersNotIndexed: stated only for plugin names without dots. A dotted plugin name can make two method keys collide.
- The parameter-schema tuple arity that `plugins/c2/plugins/internal/main.py` expects is not modelled; that file is not part of this model.
- The implant script reports `err` where `eval_js` reads `error`, and it sends its result as a JSON string in `data` (`clients/c2/clients/page/src/script.js:72-81`). The script is not part of this model; CommandPrimitives.EvalJs follows `methods.py`. A string `data` fails both `Message` schemas, as ManagerBridge.NonObjectReplyTimesOut and CommandPrimitives.StringDataReplyIsMalformed show.
- ImplantComm.KeyOf: operation values that are arrays or objects are treated as having no callback key. JavaScript would convert them to strings.
- ImplantComm.RegisterMessageCallback: the callback table is a map with no inherited keys. In the source it is an array (`communication_plugin.js:2`), so names of `Array.prototype` and `Object.prototype` members already hold values. Registering under `push` or `constructor` throws a TypeError at line 115, and `length` or `__proto__` misbehave further; the model appends as for any other name.
- ImplantComm.InvocationsFor: for the same reason, an incoming operation such as `push` or `constructor` reaches an inherited function. The `for … of` at lines 80-81 then throws and ends the rest of the batch, and the legacy `forEach` at line 72 throws too. The model finds no callbacks and PageComm.DispatchBatch carries on with the next message.
- PageComm.FindPlugin: the order among plugins of equal priority is not stated.
- Callbacks and plugin `send` functions are ids and records; a callback that throws mid-batch is not modelled.

## Findings

| source | as written | input that shows it | evidently intended | confidence | as-written member | corrected member |
|---|---|---|---|---|---|---|
| manager/c2/manager/client.py:40 | `on_timeout` is a zero-argument lambda, but `callback_manager.py:48` calls it with the key. The call raises, so no timeout envelope is ever published. | An operation `op1` for client `c1` that the implant never answers | One `timeout` envelope for `op1` after the 10-unit deadline | high, not executed | ManagerBridge.ResolveWaitAsWritten | ManagerBridge.ResolveWait |
| manager/c2/manager/client.py:99 | `cleanup` is a coroutine called without `await`, so its body never runs. | A bridge with `op1` pending is cancelled by a reconnect of its implant | One `reconnection` envelope for each pending operation, with the old bridge's wait timers cancelled so that no `timeout` follows it | high, not executed | ManagerBridge.TeardownAsWritten | ManagerBridge.Teardown |
| manager/c2/manager/client.py:65 | The bridge subscribes to `client.responses.<id>`, but the transport tier publishes on `client.response.<id>.<op>` (`clients/c2/clients/nats_client.py:15`). | Client `c1` answers operation `op1`; the bus carries `client.response.c1.op1` | Subscribe to `client.response.<id>.*` | high, not executed | BusWiring.ResponsesNeverReachBridgeAsWritten | BusWiring.ResponsesReachOwnBridge |
| manager/c2/manager/client.py:78 | Responses are republished on `manager.responses.<id>`, but the primitives wait on `manager.responses.<id>.<op>` (`plugins/c2/plugins/internal/methods.py:28`). `timeout_callback` (line 29) and `reconnect_callback` (line 35) use the same client-wide subject. | The response to `op1` of `c1` is published on `manager.responses.c1` while the primitive listens on `manager.responses.c1.op1` | Republish on `manager.responses.<id>.<op>`, and send the timeout and reconnection envelopes there too, as the corrected ResolveWait and Teardown do | high, not executed | BusWiring.RepublishedResponseMissesWaiterAsWritten | BusWiring.RepublishedResponseReachesItsWaiter |
| plugins/c2/plugins/internal/client_manager.py:22 | The `error` reply for an unknown operation omits `client_id`, which `plugins/c2/plugins/internal/classes.py:8` requires. Building it raises a validation error inside `run_method`, so `task_wrapper` never reaches `publish` and nothing is sent. | A request for operation `nope.nope` that is not in the method index | An `error` reply carrying the request's `client_id`, published on `plugin.response.<client>.<id>` | high, not executed | PluginDispatcher.UnknownOperationUnansweredAsWritten | PluginDispatcher.Complete |
| plugins/c2/plugins/internal/client_manager.py:66-69 | `Client.teardown` cancels only the method tasks, never `handle_messages_task` (line 17). After `connect_client` replaces a dispatcher, the old loop stays subscribed to `plugin.run.<id>` beside the new one. | Implant `c1` connects twice, then one invocation for `c1` arrives | Teardown also cancels the message loop, so each invocation runs once | medium, not executed | PluginDispatcher.ReconnectDuplicatesLoopAsWritten | PluginDispatcher.ConnectKeepsOneLoopPerClient |
| clients/c2/clients/page/src/communication_plugin.js:34 | The sort reads `prototype.priority`, but `priority` is a class field and is undefined on the prototype. Every comparison is NaN, so registration order is kept. | XHR plugin (priority 5) registered before WebSocket plugin (priority 10), both constructible | WebSocket, the highest priority, is chosen | high, not executed | PageComm.PriorityIgnoredAsWritten | PageComm.FindPluginPicksHighestPriority |

=== FILE: bus_wiring.dfy ===
/** How the tiers' subjects meet on the bus: which subscription of one tier
    receives which publication of another. Two of the source's subjects do
    not meet; for each, the as-written pairing is shown to lose every message
    and the corrected pairing to deliver exactly the intended ones.

    The shapes of subjects involved are first stated for arbitrary tokens and
    then applied to the tiers' fixed words. */
module BusWiring {
  import opened Common
  import opened Subjects
  import NatsRouting
  import ManagerBridge
  import CommandPrimitives

  /** `a.b.c` receives `a.b.d` exactly when `c == d`. */
  lemma ThreeLiteral(a: string, b: string, c: string, d: string)
    requires ValidToken(a) && ValidToken(b) && ValidToken(c) && ValidToken(d)
    ensures Receives(Join([a, b, c]), Join([a, b, d])) <==> c == d
  {
    LiteralReceives([a, b, c], [a, b, d]);
  }

  /** `a.b.*` receives `a.b.c`. */
  lemma ThreeStar(a: string, b: string, c: string)
    requires ValidToken(a) && ValidToken(b) && ValidToken(c)
    ensures Receives(Join([a, b, "*"]), Join([a, b, c]))
  {
    assert [a, b] + ["*"] == [a, b, "*"];
    StarReceives([a, b], [a, b, c]);
  }

  /** A literal three-token subscription receives no four-token subject. */
  lemma ThreeMissesFour(p: seq<string>, s: seq<string>)
    requires |p| == 3 && AllValid(p) && |s| == 4 && AllValid(s)
    ensures !Receives(Join(p), Join(s)) && !Receives(Join(s), Join(p))
  {
    LiteralReceives(p, s);
    LiteralReceives(s, p);
  }

  /** `a.b.c.*` receives `a.b.d.e` exactly when `c == d`. */
  lemma FourStar(a: string, b: string, c: string, d: string, e: string)
    requires ValidToken(a) && ValidToken(b) && ValidToken(c) && ValidToken(d) && ValidToken(e)
    ensures Receives(Join([a, b, c, "*"]), Join([a, b, d, e])) <==> c == d
  {
    assert [a, b, c] + ["*"] == [a, b, c, "*"];
    StarReceives([a, b, c], [a, b, d, e]);
    assert [a, b, d, e][..3] == [a, b, d];
  }

  /** `a.b.c.d` receives `a.b.e.f` exactly when `c == e` and `d == f`. */
  lemma FourLiteral(a: string, b: string, c: string, d: string, e: string, f: string)
    requires ValidToken(a) && ValidToken(b) && ValidToken(c) && ValidToken(d) && ValidToken(e) && ValidToken(f)
    ensures Receives(Join([a, b, c, d]), Join([a, b, e, f])) <==> c == e && d == f
  {
    LiteralReceives([a, b, c, d], [a, b, e, f]);
  }

  /** Operations issued by a primitive for client `c` are received by the
      bridge of `c` and of no other client. */
  lemma PrimitiveOperationsReachTheirBridge(c: string, other: string)
    requires ValidToken(c) && ValidToken(other)
    ensures Receives(ManagerBridge.OperationsSubscription(c), CommandPrimitives.OperationsSubject(other)) <==> c == other
  {
    ThreeLiteral("manager", "operations", c, other);
  }

  /** Operations forwarded by the bridge of `c` are received by the transport
      tier's `client.operations.*` subscription and routed back to `c`. */
  lemma BridgeOperationsReachTransport(c: string)
    requires ValidToken(c)
    ensures Receives(NatsRouting.OperationsSubscription(), ManagerBridge.OperationsSubject(c))
    ensures NatsRouting.ClientIdOf(ManagerBridge.OperationsSubject(c)) == c
  {
    ThreeStar("client", "operations", c);
    NatsRouting.OperationSubjectRoundTrip(c);
  }

  /** As written, the bridge subscribes to `client.responses.<id>` while the
      transport tier publishes on `client.response.<id>.<op>`: no implant
      response ever reaches the bridge. */
  lemma ResponsesNeverReachBridgeAsWritten(id: string, m: Envelope)
    requires ValidToken(id) && ValidToken(m.id) && m.operation != "connect"
    ensures !Receives(ManagerBridge.ResponsesSubscriptionAsWritten(id), NatsRouting.SendMessage(id, m).subject)
  {
    ThreeMissesFour(["client", "responses", id], ["client", "response", id, m.id]);
  }

  /** Corrected subscription `client.response.<id>.*`: the bridge of `id`
      receives every response the transport publishes for `id`, and none for
      another client. */
  lemma ResponsesReachOwnBridge(id: string, other: string, m: Envelope)
    requires ValidToken(id) && ValidToken(other) && ValidToken(m.id) && m.operation != "connect"
    ensures Receives(ManagerBridge.ResponsesSubscription(id), NatsRouting.SendMessage(other, m).subject) <==> id == other
  {
    FourStar("client", "response", id, other, m.id);
  }

  /** As written, the bridge republishes a response on
      `manager.responses.<id>` while the primitive waits on
      `manager.responses.<id>.<op>`: the waiting primitive never sees it. */
  lemma RepublishedResponseMissesWaiterAsWritten(b: ManagerBridge.Bridge, m: Envelope, opId: string)
    requires ValidToken(b.id) && ValidToken(opId) && DictData(m)
    ensures var pubs := ManagerBridge.HandleResponseAsWritten(b, Some(m)).1;
            |pubs| == 1 && !Receives(CommandPrimitives.ResponseSubject(b.id, opId), pubs[0].subject)
  {
    ThreeMissesFour(["manager", "responses", b.id], ["manager", "responses", b.id, opId]);
  }

  /** Corrected republication on the operation's own subject: the primitive
      waiting for `(client, opId)` receives the response exactly when it is
      the response of that operation of that client. */
  lemma RepublishedResponseReachesItsWaiter(b: ManagerBridge.Bridge, m: Envelope, client: string, opId: string)
    requires ValidToken(b.id) && ValidToken(m.id) && ValidToken(client) && ValidToken(opId) && DictData(m)
    ensures var pubs := ManagerBridge.HandleResponse(b, Some(m)).1;
            |pubs| == 1 &&
            (Receives(CommandPrimitives.ResponseSubject(client, opId), pubs[0].subject) <==> client == b.id && opId == m.id)
  {
    FourLiteral("manager", "responses", client, opId, b.id, m.id);
  }
  /** `eval_js` and `load_plugin` listen on exactly the subject the
      corrected bridge republishes their operation's response on: they
      receive the response of their own operation of their own client and
      no other. */
  lemma PrimitivesHearTheirResponse(b: ManagerBridge.Bridge, m: Envelope, clientId: string, code: string, url: string,
                                    opId: string, arrival: CommandPrimitives.Arrival)
    requires ValidToken(b.id) && ValidToken(m.id) && ValidToken(clientId) && ValidToken(opId) && DictData(m)
    ensures var pubs := ManagerBridge.HandleResponse(b, Some(m)).1;
            var evalJs := CommandPrimitives.EvalJs(clientId, code, opId, arrival).listensOn;
            var loadPlugin := CommandPrimitives.LoadPlugin(clientId, url, opId, arrival).listensOn;
            && (Receives(evalJs, pubs[0].subject) <==> clientId == b.id && opId == m.id)
            && (Receives(loadPlugin, pubs[0].subject) <==> clientId == b.id && opId == m.id)
  {
    RepublishedResponseReachesItsWaiter(b, m, clientId, opId);
  }
}

=== FILE: callback_table.dfy ===
/** The manager tier's correlation table: one flag per awaited operation key,
    unset when the wait is registered and set when the matching response
    arrives. The timed wait is modelled as an explicit resolution event that
    happens when the flag is set or when the deadline passes, whichever is
    first. */
module CallbackTable {

  const DefaultTimeout: nat := 10

  /** Operation key to "response seen" flag. */
  type Table = map<string, bool>

  /** `create_callback`: installs a fresh unset entry for `id` (replacing any
      entry already there); nothing else changes. */
  function Create(t: Table, id: string): (r: Table)
    ensures r.Keys == t.Keys + {id}
    ensures !r[id]
    ensures forall k :: k in t && k != id ==> r[k] == t[k]
  {
    t[id := false]
  }

  /** What `trigger_callback` logs. */
  datatype TriggerLog = UnknownId | FirstTrigger | AlreadySet

  /** `trigger_callback`: an unknown id is logged and ignored; a known id is
      left set, and triggering an already set entry is logged and changes
      nothing further. */
  function Trigger(t: Table, id: string): (r: (Table, TriggerLog))
    ensures id !in t ==> r == (t, UnknownId)
    ensures id in t ==> r.0.Keys == t.Keys && r.0[id]
    ensures id in t ==> (r.1 == AlreadySet <==> t[id]) && r.1 != UnknownId
    ensures id in t && t[id] ==> r.0 == t
    ensures forall k :: k in t && k != id ==> r.0[k] == t[k]
  {
    if id !in t then (t, UnknownId)
    else (t[id := true], if t[id] then AlreadySet else FirstTrigger)
  }

  /** The registration half of `wait_for_callback`: the entry is created only
      when absent, so an existing entry, set or not, is kept. */
  function Wait(t: Table, id: string): (r: Table)
    ensures r.Keys == t.Keys + {id}
    ensures id in t ==> r == t
    ensures id !in t ==> !r[id] && forall k :: k in t ==> r[k] == t[k]
  {
    if id in t then t else Create(t, id)
  }

  /** A response that arrives between creation and the wait is not lost. */
  lemma TriggerBeforeWaitIsKept(t: Table, id: string)
    ensures Wait(Trigger(Create(t, id), id).0, id)[id]
  {
  }

  /** How a wait ends: the flag was set before the deadline, the deadline
      passed first, or the entry was already gone (the table lookup raises
      and the failure is only logged). */
  datatype WaitOutcome = Delivered | TimedOut | MissingEntry

  /** The resolution event of `_wait_for_callback`: `on_timeout` is due only
      when the deadline passed with the flag unset, and the entry is removed in
      every case. */
  function Resolve(t: Table, id: string): (r: (Table, WaitOutcome))
    ensures r.0.Keys == t.Keys - {id}
    ensures forall k :: k in r.0 ==> r.0[k] == t[k]
    ensures r.1 == MissingEntry <==> id !in t
    ensures r.1 == TimedOut <==> id in t && !t[id]
    ensures r.1 == Delivered <==> id in t && t[id]
  {
    if id !in t then (t, MissingEntry)
    else (t - {id}, if t[id] then Delivered else TimedOut)
  }

  /** After the wait is resolved a late response is a logged no-op. */
  lemma LateTriggerIsNoop(t: Table, id: string)
    ensures var after := Resolve(t, id).0;
            Trigger(after, id) == (after, UnknownId)
  {
  }

  /** A wait that sees its response is delivered and never times out, whether
      the response came before or after the wait registered; one that never
      sees it times out exactly once. */
  lemma {:induction false} ExactlyOneOutcome(t: Table, id: string, responded: bool)
    ensures var registered := Wait(t, id);
            var seen := if responded then Trigger(registered, id).0 else registered;
            var (after, outcome) := Resolve(seen, id);
            && (responded ==> outcome == Delivered)
            && (!responded && (id !in t || !t[id]) ==> outcome == TimedOut)
            && Resolve(after, id).1 == MissingEntry
  {
  }
}

=== FILE: command_primitives.dfy ===
/** The remote-command primitives used by plugin bodies: each publishes an
    operation for the manager tier and waits for exactly one correlated
    response, which is classified into a value or a typed failure. Fresh
    operation ids are parameters; what the wait sees is an explicit input. */
module CommandPrimitives {
  import opened Common
  import opened Subjects

  datatype Failure =
    | ReconnectionError(detail: Json)
    | TimeoutError(detail: Json)
    | JSExecutionError(detail: Json)
    /** No message arrived before the 10-unit deadline of `next_msg` (the
        bus client raises). */
    | NoResponse
    /** The message did not validate as an envelope: it did not parse, or
        its data is not an object. */
    | Malformed

  /** What the one-message subscription yields: nothing before the deadline,
      or a message and its parse. */
  datatype Arrival = Silence | Received(parsed: Option<Envelope>)

  /** Where the manager tier publishes operations for a client. */
  function OperationsSubject(clientId: string): string {
    Join(["manager", "operations", clientId])
  }

  /** The subject `_wait_for_response` subscribes to. */
  function ResponseSubject(clientId: string, opId: string): string {
    Join(["manager", "responses", clientId, opId])
  }

  /** `_wait_for_response`: a response that fails validation raises; a
      `reconnection` response raises ReconnectionError and a `timeout`
      response raises TimeoutError, both carrying `data.error`; any other
      response yields its `data` unchanged, which is always an object. */
  function Classify(arrival: Arrival): (r: Result<Json, Failure>)
    ensures arrival.Silence? ==> r == Err(NoResponse)
    ensures arrival.Received? && (arrival.parsed.None? || !DictData(arrival.parsed.value)) ==> r == Err(Malformed)
    ensures r.Ok? ==> r.value.JObj?
    ensures arrival.Received? && arrival.parsed.Some? && DictData(arrival.parsed.value) ==>
              var m := arrival.parsed.value;
              && (m.operation == "reconnection" ==> r == Err(ReconnectionError(Get(m.data, "error"))))
              && (m.operation == "timeout" ==> r == Err(TimeoutError(Get(m.data, "error"))))
              && (m.operation != "reconnection" && m.operation != "timeout" ==> r == Ok(m.data))
  {
    match arrival
    case Silence => Err(NoResponse)
    case Received(None) => Err(Malformed)
    case Received(Some(m)) =>
      if !DictData(m) then Err(Malformed)
      else if m.operation == "reconnection" then Err(ReconnectionError(Get(m.data, "error")))
      else if m.operation == "timeout" then Err(TimeoutError(Get(m.data, "error")))
      else Ok(m.data)
  }

  /** A primitive call: the operation published, the subject waited on and
      the outcome. */
  datatype Call<T> = Call(request: Publication<Envelope>, listensOn: string, outcome: Result<T, Failure>)

  /** `eval_js`: publishes `{operation: "eval_js", data: {code}}` under the
      fresh id `opId`, waits on that id's response subject, raises
      JSExecutionError when the response's `error` is truthy and otherwise
      returns its `result`. */
  function EvalJs(clientId: string, code: string, opId: string, arrival: Arrival): (c: Call<Json>)
    ensures c.request.subject == OperationsSubject(clientId)
    ensures c.request.payload.operation == "eval_js" && c.request.payload.id == opId
    ensures c.request.payload.data == JObj(map["code" := JStr(code)])
    ensures c.listensOn == ResponseSubject(clientId, c.request.payload.id)
    ensures Classify(arrival).Err? ==> c.outcome == Err(Classify(arrival).error)
    ensures Classify(arrival).Ok? ==>
              var data := Classify(arrival).value;
              && (PyTruthy(Get(data, "error")) ==> c.outcome == Err(JSExecutionError(Get(data, "error"))))
              && (!PyTruthy(Get(data, "error")) ==> c.outcome == Ok(Get(data, "result")))
  {
    var request := Publication(OperationsSubject(clientId),
                               Envelope("eval_js", JObj(map["code" := JStr(code)]), opId));
    var outcome :=
      match Classify(arrival)
      case Err(e) => Err(e)
      case Ok(data) =>
        if PyTruthy(Get(data, "error")) then Err(JSExecutionError(Get(data, "error")))
        else Ok(Get(data, "result"));
    Call(request, ResponseSubject(clientId, opId), outcome)
  }

  /** `load_plugin`: publishes `{operation: "load_plugin", data: {url}}`,
      discards the response's data but still raises the reconnection and
      timeout failures. */
  function LoadPlugin(clientId: string, url: string, opId: string, arrival: Arrival): (c: Call<()>)
    ensures c.request.subject == OperationsSubject(clientId)
    ensures c.request.payload.operation == "load_plugin" && c.request.payload.id == opId
    ensures c.request.payload.data == JObj(map["url" := JStr(url)])
    ensures c.listensOn == ResponseSubject(clientId, opId)
    ensures c.outcome.Ok? <==> Classify(arrival).Ok?
    ensures c.outcome.Err? ==> c.outcome.error == Classify(arrival).error
  {
    var request := Publication(OperationsSubject(clientId),
                               Envelope("load_plugin", JObj(map["url" := JStr(url)]), opId));
    var outcome := match Classify(arrival)
      case Err(e) => Err(e)
      case Ok(_) => Ok(());
    Call(request, ResponseSubject(clientId, opId), outcome)
  }

  /** The implant's reply to `eval_js`, an envelope whose data holds the
      script's `result` and no truthy `error`, makes `eval_js` return
      exactly that result; a truthy `error` makes it raise
      JSExecutionError carrying the error. */
  lemma EvalJsReturnsResult(clientId: string, code: string, opId: string, m: Envelope, v: Json)
    requires m.operation != "reconnection" && m.operation != "timeout"
    requires m.data == JObj(map["result" := v])
    ensures EvalJs(clientId, code, opId, Received(Some(m))).outcome == Ok(v)
  {
  }

  lemma EvalJsReportsScriptError(clientId: string, code: string, opId: string, m: Envelope, e: Json)
    requires m.operation != "reconnection" && m.operation != "timeout"
    requires Get(m.data, "error") == e && PyTruthy(e)
    ensures EvalJs(clientId, code, opId, Received(Some(m))).outcome == Err(JSExecutionError(e))
  {
  }

  /** A reply whose data is a string, as the implant's `eval_result` is,
      fails validation: `eval_js` raises instead of returning it. */
  lemma StringDataReplyIsMalformed(clientId: string, code: string, opId: string, m: Envelope)
    requires m.data.JStr?
    ensures EvalJs(clientId, code, opId, Received(Some(m))).outcome == Err(Malformed)
  {
  }

  /** `load_plugin` succeeds on every valid reply that is not one of the two
      synthetic failure envelopes, whatever object the implant sent back. */
  lemma LoadPluginIgnoresData(clientId: string, url: string, opId: string, m: Envelope)
    requires m.operation != "reconnection" && m.operation != "timeout" && DictData(m)
    ensures LoadPlugin(clientId, url, opId, Received(Some(m))).outcome == Ok(())
  {
  }

  /** The primitives distinguish a reset implant session from a deadline:
      the two synthetic envelopes never classify alike, and neither is
      mistaken for a value. */
  lemma ReconnectionAndTimeoutAreDistinct(a: Envelope, b: Envelope)
    requires a.operation == "reconnection" && b.operation == "timeout" && DictData(a) && DictData(b)
    ensures Classify(Received(Some(a))) != Classify(Received(Some(b)))
    ensures Classify(Received(Some(a))).Err? && Classify(Received(Some(b))).Err?
  {
  }
}

=== FILE: common.dfy ===
/** Shared vocabulary of the model: optional values, results, the JSON-like
    payloads carried on the bus, publications, and the few string operations
    the source performs (prefix/suffix tests, substring test, removeprefix). */
module Common {

  datatype Option<+T> = None | Some(value: T)

  datatype Result<+T, +E> = Ok(value: T) | Err(error: E)

  /** A JSON document as carried in the `data` fields of the envelopes. */
  datatype Json =
    | JNull
    | JBool(b: bool)
    | JInt(i: int)
    | JStr(s: string)
    | JArr(items: seq<Json>)
    | JObj(fields: map<string, Json>)

  /** The envelope `{operation, data, id}` used by the transport tier, the
      manager tier and the command primitives. */
  datatype Envelope = Envelope(operation: string, data: Json, id: string)

  /** The `Message` schemas of the manager tier and of the command
      primitives declare `data: dict`: an envelope whose data is not an
      object fails their validation. The transport tier accepts any data. */
  predicate DictData(e: Envelope) {
    e.data.JObj?
  }

  /** One message handed to the bus: a subject and what is serialised on it. */
  datatype Publication<+P> = Publication(subject: string, payload: P)

  /** Python truthiness of a decoded JSON value. */
  predicate PyTruthy(v: Json) {
    match v
    case JNull => false
    case JBool(b) => b
    case JInt(i) => i != 0
    case JStr(s) => |s| > 0
    case JArr(items) => |items| > 0
    case JObj(fields) => |fields| > 0
  }

  /** JavaScript truthiness of a decoded JSON value (arrays and objects are
      always truthy). */
  predicate JsTruthy(v: Json) {
    match v
    case JNull => false
    case JBool(b) => b
    case JInt(i) => i != 0
    case JStr(s) => |s| > 0
    case JArr(_) => true
    case JObj(_) => true
  }

  /** `data.get(key)` on a decoded payload: a missing key, or a payload that
      is not an object, reads as `None`. */
  function Get(v: Json, key: string): (r: Json)
    ensures v.JObj? && key in v.fields ==> r == v.fields[key]
    ensures !(v.JObj? && key in v.fields) ==> r == JNull
  {
    if v.JObj? && key in v.fields then v.fields[key] else JNull
  }

  predicate StartsWith(s: string, prefix: string) {
    |prefix| <= |s| && s[..|prefix|] == prefix
  }

  predicate EndsWith(s: string, suffix: string) {
    |suffix| <= |s| && s[|s| - |suffix|..] == suffix
  }

  /** Python's `sub in s`. */
  predicate Contains(s: string, sub: string)
    decreases |s|
  {
    StartsWith(s, sub) || (|s| > 0 && Contains(s[1..], sub))
  }

  /** Python's `str.removeprefix`. */
  function RemovePrefix(s: string, prefix: string): (r: string)
    ensures StartsWith(s, prefix) ==> prefix + r == s
    ensures !StartsWith(s, prefix) ==> r == s
  {
    if StartsWith(s, prefix) then s[|prefix|..] else s
  }

  lemma RemovePrefixOfConcat(prefix: string, rest: string)
    ensures RemovePrefix(prefix + rest, prefix) == rest
  {
    assert (prefix + rest)[..|prefix|] == prefix;
  }

  /** Tokens joined with a single separator character. */
  function JoinWith(ts: seq<string>, sep: char): string
  {
    if |ts| == 0 then ""
    else if |ts| == 1 then ts[0]
    else ts[0] + [sep] + JoinWith(ts[1..], sep)
  }

  /** Extending the last token extends the joined string by the same suffix. */
  lemma {:induction false} JoinWithExtendLast(ts: seq<string>, last: string, suffix: string, sep: char)
    ensures JoinWith(ts + [last + suffix], sep) == JoinWith(ts + [last], sep) + suffix
    decreases |ts|
  {
    if |ts| > 0 {
      assert (ts + [last + suffix])[1..] == ts[1..] + [last + suffix];
      assert (ts + [last])[1..] == ts[1..] + [last];
      JoinWithExtendLast(ts[1..], last, suffix, sep);
    }
  }

  /** Every occurrence of `a` replaced by `b` (Python's `str.replace` on a
      single character). */
  function ReplaceChar(s: string, a: char, b: char): (r: string)
    ensures |r| == |s|
    ensures forall i :: 0 <= i < |s| ==> r[i] == (if s[i] == a then b else s[i])
  {
    if |s| == 0 then "" else [if s[0] == a then b else s[0]] + ReplaceChar(s[1..], a, b)
  }

  /** Replacing `a` by `b` turns a list joined with `a` into the same list
      joined with `b`, provided no token contains `a`. */
  lemma {:induction false} ReplaceSeparator(ts: seq<string>, a: char, b: char)
    requires forall i :: 0 <= i < |ts| ==> a !in ts[i]
    ensures ReplaceChar(JoinWith(ts, a), a, b) == JoinWith(ts, b)
    decreases |ts|
  {
    if |ts| == 1 {
      assert ReplaceChar(ts[0], a, b) == ts[0];
    } else if |ts| > 1 {
      ReplaceSeparator(ts[1..], a, b);
      var x := ts[0] + [a];
      var y := JoinWith(ts[1..], a);
      assert ReplaceChar(x + y, a, b) == ReplaceChar(x, a, b) + ReplaceChar(y, a, b);
      assert ReplaceChar(x, a, b) == ts[0] + [b];
    }
  }

  /** Decimal rendering of a natural number, as Python's f-string does. */
  function DecimalString(n: nat): (r: string)
    ensures |r| >= 1
    ensures forall i :: 0 <= i < |r| ==> '0' <= r[i] <= '9'
  {
    var d := [(('0' as int) + n % 10) as char];
    if n < 10 then d else DecimalString(n / 10) + d
  }
}

=== FILE: header_filter.dfy ===
/** The header filter of the page-serving browser: every response header
    whose lower-cased name is one of the framing, CORS and content-security
    headers is dropped, every other header passes with its value unchanged. */
module HeaderFilter {

  /** The names removed from every proxied response, in lower case. */
  const HeadersToRemove: seq<string> := [
    "access-control-allow-origin",
    "access-control-allow-credentials",
    "access-control-allow-methods",
    "access-control-allow-headers",
    "access-control-expose-headers",
    "x-frame-options",
    "content-security-policy",
    "content-security-policy-report-only",
    "x-xss-protection",
    "x-content-type-options",
    "strict-transport-security",
    "referrer-policy",
    "permissions-policy"
  ]

  function LowerChar(c: char): char {
    if 'A' <= c <= 'Z' then (c as int + 32) as char else c
  }

  /** `str.lower` on ASCII letters. */
  function Lower(s: string): (r: string)
    ensures |r| == |s|
    ensures forall i :: 0 <= i < |s| ==> r[i] == LowerChar(s[i])
  {
    if |s| == 0 then "" else [LowerChar(s[0])] + Lower(s[1..])
  }

  /** Lower-casing twice is lower-casing once. */
  lemma LowerIdempotent(s: string)
    ensures Lower(Lower(s)) == Lower(s)
  {
  }

  predicate Stripped(name: string) {
    Lower(name) in HeadersToRemove
  }

  /** `clean_headers`. */
  function CleanHeaders(headers: map<string, string>): (r: map<string, string>)
    ensures forall k :: k in r <==> k in headers && !Stripped(k)
    ensures forall k :: k in r ==> r[k] == headers[k]
  {
    map k | k in headers && !Stripped(k) :: headers[k]
  }

  /** Filtering an already filtered header set changes nothing. */
  lemma CleanHeadersIdempotent(headers: map<string, string>)
    ensures CleanHeaders(CleanHeaders(headers)) == CleanHeaders(headers)
  {
  }

  /** Removal ignores case: two names that differ only in ASCII case are
      both kept or both removed. */
  lemma RemovalIgnoresCase(headers: map<string, string>, a: string, b: string)
    requires a in headers && b in headers && Lower(a) == Lower(b)
    ensures a in CleanHeaders(headers) <==> b in CleanHeaders(headers)
  {
  }

  /** Whatever the server sent, no name on the list survives in any
      capitalisation. */
  lemma ListedNamesNeverSurvive(headers: map<string, string>, k: string)
    requires k in CleanHeaders(headers)
    ensures forall i :: 0 <= i < |HeadersToRemove| ==> Lower(k) != HeadersToRemove[i]
  {
  }
}

=== FILE: implant_comm.dfy ===
/** What the two versions of the implant's communication layer share: the
    registration of transport plugins, the table of message callbacks keyed
    by operation, and how one incoming message is turned into callback
    invocations.

    Plugin classes are values; whether constructing one throws is a field.
    Callbacks are identified by ids; calling one is recorded as an
    invocation with the message's `data` (`None` stands for `undefined`). */
module ImplantComm {
  import opened Common

  /** A transport plugin class: whether it is a proper subclass of the
      plugin base class, its `priority` class field, and whether `new`
      succeeds in this environment. */
  datatype PluginClass = PluginClass(name: string, extendsBase: bool, priority: int, constructs: bool)

  /** What is handed to `register_communication_plugin`: `undefined` or
      `null`, another non-class value, or a class. */
  datatype Candidate = Nullish | NotAClass | Class(cls: PluginClass)

  /** The exceptions the layer raises. */
  datatype JsError = TypeError | Error(message: string)

  const NotAPluginText := "Plugin must be a class that extends CommuncationPlugin"

  /** `register_communication_plugin`: logging `plugin.name` throws a
      TypeError for `undefined` and `null`; any other value but a proper
      subclass of the base class is refused with the fixed error; a plugin
      is appended to the registration list. */
  function RegisterPlugin(plugins: seq<PluginClass>, c: Candidate): (r: Result<seq<PluginClass>, JsError>)
    ensures r.Ok? <==> c.Class? && c.cls.extendsBase
    ensures r.Ok? ==> r.value == plugins + [c.cls]
    ensures c.Nullish? ==> r == Err(TypeError)
    ensures r.Err? && !c.Nullish? ==> r.error == Error(NotAPluginText)
  {
    if c.Nullish? then Err(TypeError)
    else if c.Class? && c.cls.extendsBase then Ok(plugins + [c.cls])
    else Err(Error(NotAPluginText))
  }

  /** Every registered plugin is a proper subclass of the base class. */
  predicate AllExtendBase(plugins: seq<PluginClass>) {
    forall i :: 0 <= i < |plugins| ==> plugins[i].extendsBase
  }

  lemma RegistrationKeepsOnlySubclasses(plugins: seq<PluginClass>, c: Candidate)
    requires AllExtendBase(plugins)
    ensures RegisterPlugin(plugins, c).Ok? ==> AllExtendBase(RegisterPlugin(plugins, c).value)
  {
  }

  /** The plugin loop of `find_plugin`: the first class whose constructor
      does not throw. */
  function FirstConstructible(plugins: seq<PluginClass>): (r: Option<PluginClass>)
    ensures r.None? <==> forall i :: 0 <= i < |plugins| ==> !plugins[i].constructs
    ensures r.Some? ==> exists i :: 0 <= i < |plugins| && plugins[i] == r.value && r.value.constructs
                                    && forall j :: 0 <= j < i ==> !plugins[j].constructs
    decreases |plugins|
  {
    if |plugins| == 0 then None
    else if plugins[0].constructs then Some(plugins[0])
    else
      FirstConstructible(plugins[1..])
  }

  type CallbackId = nat

  /** The callback table, keyed by the operation name. */
  type Callbacks = map<string, seq<CallbackId>>

  /** `on_message_callbacks[operation] || []`. */
  function CallbacksFor(cbs: Callbacks, key: string): seq<CallbackId> {
    if key in cbs then cbs[key] else []
  }

  /** `register_message_callback`: appends to the operation's list, creating
      it on first use; the other operations keep their lists. */
  function RegisterMessageCallback(cbs: Callbacks, key: string, cb: CallbackId): (r: Callbacks)
    ensures CallbacksFor(r, key) == CallbacksFor(cbs, key) + [cb]
    ensures forall k :: k != key ==> CallbacksFor(r, k) == CallbacksFor(cbs, k)
    ensures r.Keys == cbs.Keys + {key}
  {
    cbs[key := CallbacksFor(cbs, key) + [cb]]
  }

  /** One callback call, with the message's `data`. */
  datatype Invocation = Invocation(callback: CallbackId, data: Option<Json>)

  /** `msg?.operation`, with `undefined` read as JNull. */
  function OperationOf(msg: Json): Json {
    if msg.JObj? && "operation" in msg.fields then msg.fields["operation"] else JNull
  }

  /** `msg?.data`. */
  function DataOf(msg: Json): Option<Json> {
    if msg.JObj? && "data" in msg.fields then Some(msg.fields["data"]) else None
  }

  /** A message is addressed when its operation is truthy. */
  predicate Addressed(msg: Json) {
    JsTruthy(OperationOf(msg))
  }

  /** Decimal text of an integer, with a leading minus for negatives. */
  function IntText(i: int): string {
    if i >= 0 then DecimalString(i) else "-" + DecimalString(-i)
  }

  /** The property key an operation value is converted to when it indexes
      the callback table; only strings, numbers and booleans are modelled. */
  function KeyOf(op: Json): Option<string> {
    match op
    case JStr(s) => Some(s)
    case JInt(i) => Some(IntText(i))
    case JBool(b) => Some(if b then "true" else "false")
    case _ => None
  }

  /** The callbacks an addressed message reaches, in registration order,
      each given the message's `data`. */
  function InvocationsFor(cbs: Callbacks, msg: Json): (r: seq<Invocation>)
    ensures var key := KeyOf(OperationOf(msg));
            && (key.None? ==> r == [])
            && (key.Some? ==> |r| == |CallbacksFor(cbs, key.value)|
                              && forall i :: 0 <= i < |r| ==> r[i] == Invocation(CallbacksFor(cbs, key.value)[i], DataOf(msg)))
  {
    match KeyOf(OperationOf(msg))
    case None => []
    case Some(key) =>
      var list := CallbacksFor(cbs, key);
      seq(|list|, i requires 0 <= i < |list| => Invocation(list[i], DataOf(msg)))
  }

  /** A callback registered for an operation runs after the ones registered
      before it, on every later message of that operation, and nothing
      changes for messages of other operations. */
  lemma RegisteredCallbackRunsLast(cbs: Callbacks, op: string, cb: CallbackId, msg: Json)
    requires OperationOf(msg) == JStr(op)
    ensures InvocationsFor(RegisterMessageCallback(cbs, op, cb), msg)
              == InvocationsFor(cbs, msg) + [Invocation(cb, DataOf(msg))]
  {
  }

  lemma OtherOperationsUnaffected(cbs: Callbacks, op: string, cb: CallbackId, msg: Json)
    requires KeyOf(OperationOf(msg)) != Some(op)
    ensures InvocationsFor(RegisterMessageCallback(cbs, op, cb), msg) == InvocationsFor(cbs, msg)
  {
  }

  /** A payload value whose `typeof` is not `"string"`. */
  type NonString = j: Json | !j.JStr? witness JNull

  /** What the transport hands to the message handler: a non-string value,
      or a string together with the outcome of `JSON.parse` on it. */
  datatype Incoming = Raw(value: NonString) | Text(parsed: Option<Json>)

  /** The message sent by a plugin's `send`. */
  datatype Sent = Sent(via: PluginClass, data: Json)
}

=== FILE: legacy_page_comm.dfy ===
/** The implant's communication layer, older version: plugins are tried in
    registration order, establishment fails loudly, each payload is a single
    message, sending before establishment throws, and teardown also empties
    the callback table. */
module LegacyPageComm {
  import opened Common
  import opened ImplantComm
  import PageComm

  datatype State = State(
    plugins: seq<PluginClass>,
    callbacks: Callbacks,
    active: Option<PluginClass>,
    /** The plugin `plugin_send_function` is bound to, if set. */
    boundTo: Option<PluginClass>)

  const Initial := State([], map[], None, None)

  datatype Step = Step(state: State, sent: seq<Sent>, error: Option<JsError>)

  const NoPluginText := "No communication plugin could be established"
  const NotEstablishedText := "Communication plugin not established"

  /** `find_plugin`: the first constructible plugin in registration order. */
  function FindPlugin(plugins: seq<PluginClass>): (r: Option<PluginClass>)
    ensures r.None? <==> forall i :: 0 <= i < |plugins| ==> !plugins[i].constructs
    ensures r.Some? ==> r.value.constructs && exists i :: 0 <= i < |plugins| && plugins[i] == r.value
                                                         && forall j :: 0 <= j < i ==> !plugins[j].constructs
  {
    FirstConstructible(plugins)
  }

  /** `establish_communication`: without a constructible plugin it throws
      (the active plugin is left unset); otherwise the chosen plugin becomes
      active and `send` is bound to it. No connect message is sent. */
  function Establish(st: State): (r: Step)
    ensures r.sent == [] && r.state.plugins == st.plugins && r.state.callbacks == st.callbacks
    ensures r.state.active == FindPlugin(st.plugins)
    ensures FindPlugin(st.plugins).None? ==>
              r.error == Some(Error(NoPluginText)) && r.state.boundTo == st.boundTo
    ensures FindPlugin(st.plugins).Some? ==>
              r.error.None? && r.state.boundTo == FindPlugin(st.plugins)
  {
    match FindPlugin(st.plugins)
    case None => Step(st.(active := None), [], Some(Error(NoPluginText)))
    case Some(p) => Step(st.(active := Some(p), boundTo := Some(p)), [], None)
  }

  /** `send_message`: throws when no send function is bound; otherwise the
      message goes to the plugin the function was bound to. */
  function Send(st: State, data: Json): (r: Step)
    ensures r.state == st
    ensures st.boundTo.None? ==> r.sent == [] && r.error == Some(Error(NotEstablishedText))
    ensures st.boundTo.Some? ==> r.sent == [Sent(st.boundTo.value, data)] && r.error.None?
  {
    match st.boundTo
    case None => Step(st, [], Some(Error(NotEstablishedText)))
    case Some(p) => Step(st, [Sent(p, data)], None)
  }

  /** `teardown_communication`: with an active plugin, it, the send function
      and the whole callback table are reset; without one, the call on the
      missing plugin throws and nothing changes. */
  function Teardown(st: State): (r: Step)
    ensures r.sent == []
    ensures st.active.None? ==> r.state == st && r.error == Some(TypeError)
    ensures st.active.Some? ==> r.error.None? && r.state == State(st.plugins, map[], None, None)
  {
    if st.active.None? then Step(st, [], Some(TypeError))
    else Step(State(st.plugins, map[], None, None), [], None)
  }

  /** Once established, every send goes through the plugin the selection
      chose; when none can be chosen, sending keeps behaving as before the
      attempt. */
  lemma EstablishThenSend(st: State, data: Json)
    ensures FindPlugin(st.plugins).Some? ==>
              Send(Establish(st).state, data) == Step(Establish(st).state, [Sent(FindPlugin(st.plugins).value, data)], None)
    ensures FindPlugin(st.plugins).None? ==> Send(Establish(st).state, data).sent == Send(st, data).sent
  {
  }

  /** After teardown a send throws, and callbacks registered before it are
      gone. */
  lemma TeardownForgetsEverything(st: State, data: Json, key: string)
    requires st.active.Some?
    ensures Send(Teardown(st).state, data).error == Some(Error(NotEstablishedText))
    ensures CallbacksFor(Teardown(st).state.callbacks, key) == []
  {
  }

  /** The message a payload carries: a non-string as is, a string if it
      parses. */
  function MessageOf(incoming: Incoming): Option<Json> {
    match incoming
    case Raw(msg) => Some(msg)
    case Text(parsed) => parsed
  }

  /** The message handler for one payload: a string is parsed (a failure is
      logged), a message without an operation or without callbacks is
      dropped, and otherwise every callback of its operation runs with its
      `data`, in registration order. */
  function Receive(st: State, incoming: Incoming): (r: seq<Invocation>)
    ensures MessageOf(incoming).None? ==> r == []
    ensures MessageOf(incoming).Some? && !Addressed(MessageOf(incoming).value) ==> r == []
    ensures MessageOf(incoming).Some? && Addressed(MessageOf(incoming).value) ==>
              r == InvocationsFor(st.callbacks, MessageOf(incoming).value)
  {
    match incoming
    case Text(None) => []
    case Text(Some(msg)) => if Addressed(msg) then InvocationsFor(st.callbacks, msg) else []
    case Raw(msg) => if Addressed(msg) then InvocationsFor(st.callbacks, msg) else []
  }

  /** The two versions agree on a single addressed message: the newer one
      dispatches a one-element array exactly as the older one dispatches the
      message itself. */
  lemma OneMessageBatchAgrees(callbacks: Callbacks, msg: NonString)
    requires Addressed(msg)
    ensures var batch := PageComm.Receive(PageComm.State([], callbacks, None, false), Text(Some(JArr([msg]))));
            batch.Ok? && batch.value == Receive(State([], callbacks, None, None), Raw(msg))
  {
    assert [msg][1..] == [];
    assert PageComm.DispatchBatch(callbacks, [msg])
             == InvocationsFor(callbacks, msg) + PageComm.DispatchBatch(callbacks, []);
  }

  /** The versions differ on an array payload: the older one reads it as one
      message without an operation and dispatches nothing. */
  lemma ArrayPayloadIgnored(st: State, msgs: seq<Json>)
    ensures Receive(st, Text(Some(JArr(msgs)))) == []
  {
  }
}

=== FILE: legacy_registry.dfy ===
/** The older connection registry: clients with an outbound queue but no
    heartbeat tracking, messages without an id, and a message handler that
    only answers heartbeats. */
module LegacyRegistry {
  import opened Common
  import Registry

  datatype Message = Message(operation: string, data: Json)

  /** The older client's status is set once to `connected` and never changed. */
  datatype Client = Client(id: string, status: string, queue: seq<Message>)

  type Clients = map<string, Client>

  function NewClient(id: string): (c: Client)
    ensures c.id == id && c.status == "connected" && c.queue == []
  {
    Client(id, "connected", [])
  }

  /** Appends one message after everything already queued. */
  function EnqueueOnClient(c: Client, m: Message): (r: Client)
    ensures r.id == c.id && r.status == c.status
    ensures |r.queue| == |c.queue| + 1
    ensures r.queue[..|c.queue|] == c.queue && r.queue[|c.queue|] == m
  {
    c.(queue := c.queue + [m])
  }

  function QueueOf(clients: Clients, id: string): seq<Message> {
    if id in clients then clients[id].queue else []
  }

  function GetClient(clients: Clients, id: string): (r: (Clients, Client))
    ensures id in r.0 && r.0[id] == r.1
    ensures r.0.Keys == clients.Keys + {id}
    ensures forall k :: k in clients ==> r.0[k] == clients[k]
    ensures id !in clients ==> r.1 == NewClient(id)
  {
    Registry.GetOrCreate(clients, id, NewClient(id))
  }

  function AddClient(clients: Clients, c: Client): (r: Clients)
    ensures r.Keys == clients.Keys + {c.id}
    ensures forall k :: k in clients ==> r[k] == clients[k]
    ensures c.id !in clients ==> r[c.id] == c
  {
    Registry.AddIfAbsent(clients, c.id, c)
  }

  /** A client added under a new id is what the next lookup of that id
      returns; adding under a known id changes nothing. */
  lemma AddedClientIsFound(clients: Clients, c: Client)
    ensures c.id !in clients ==> GetClient(AddClient(clients, c), c.id) == (AddClient(clients, c), c)
    ensures c.id in clients ==> AddClient(clients, c) == clients
  {
  }

  /** Creates the client for an unknown id first, then queues the message;
      no other client changes. */
  function Enqueue(clients: Clients, id: string, m: Message): (r: Clients)
    ensures r.Keys == clients.Keys + {id}
    ensures r[id].queue == QueueOf(clients, id) + [m]
    ensures id !in clients ==> r[id].status == "connected"
    ensures forall k :: k in clients ==> r[k].status == clients[k].status
    ensures forall k :: k in clients && k != id ==> r[k] == clients[k]
  {
    var (reg, c) := GetClient(clients, id);
    reg[id := EnqueueOnClient(c, m)]
  }

  /** `handle_message`: `heartbeat` is answered with `pong`; any other
      operation is only logged and yields nothing. */
  function HandleMessage(m: Message): (r: Option<Message>)
    ensures r.Some? <==> m.operation == "heartbeat"
    ensures r.Some? ==> r.value == Message("heartbeat", JStr("pong"))
  {
    if m.operation == "heartbeat" then Some(Message("heartbeat", JStr("pong"))) else None
  }

  /** `Client.prepare_response`: a payload that does not validate raises
      (`None`); otherwise the reply, when there is one, followed by the queue
      in order, and the queue is emptied. Only queued messages go back for a
      non-heartbeat message. */
  function PrepareResponse(c: Client, parsed: Option<Message>): (r: Option<(Client, seq<Message>)>)
    ensures parsed.None? <==> r.None?
    ensures r.Some? ==> r.value.0 == c.(queue := [])
    ensures r.Some? && parsed.value.operation == "heartbeat" ==>
              r.value.1 == [Message("heartbeat", JStr("pong"))] + c.queue
    ensures r.Some? && parsed.value.operation != "heartbeat" ==> r.value.1 == c.queue
  {
    match parsed
    case None => None
    case Some(m) =>
      var reply := HandleMessage(m);
      var out := (if reply.Some? then [reply.value] else []) + c.queue;
      Some((c.(queue := []), out))
  }

  /** A message queued through the registry is the last thing sent back on the
      client's next turn, and the queue is empty afterwards. */
  lemma {:induction false} EnqueuedMessageFlushed(clients: Clients, id: string, q: Message, m: Message)
    ensures var reg := Enqueue(clients, id, q);
            var p := PrepareResponse(reg[id], Some(m));
            p.Some? && |p.value.1| >= 1 && p.value.1[|p.value.1| - 1] == q && p.value.0.queue == []
  {
    var reg := Enqueue(clients, id, q);
    assert reg[id].queue == QueueOf(clients, id) + [q];
  }
}

=== FILE: manager_bridge.dfy ===
/** The manager tier: one bridge per connected implant, forwarding operator
    operations to the implant and implant responses back to the operator, with
    a correlation table that turns a missing response into a `timeout`
    envelope; and the supervisor that keeps one bridge per implant id.

    Each loop body is a step function over the bridge; the wait's deadline and
    the bridge's cancellation are explicit events. Where the source as written
    loses the timeout and reconnection envelopes, both the as-written step
    (suffix `AsWritten`) and the corrected step are given; the supervisor uses
    the corrected ones. */
module ManagerBridge {
  import opened Common
  import opened Subjects
  import CallbackTable

  datatype Bridge = Bridge(id: string, waits: CallbackTable.Table)

  type Pub = Publication<Envelope>

  function NewBridge(id: string): Bridge {
    Bridge(id, map[])
  }

  /** The correlation key of an operation of this client. */
  function WaitKey(clientId: string, opId: string): string {
    clientId + "." + opId
  }

  /** A response for operation X resolves only the wait for X. */
  lemma {:induction false} WaitKeySeparatesOperations(clientId: string, a: string, b: string)
    ensures WaitKey(clientId, a) == WaitKey(clientId, b) <==> a == b
  {
    if WaitKey(clientId, a) == WaitKey(clientId, b) {
      assert a == WaitKey(clientId, a)[|clientId| + 1..];
      assert b == WaitKey(clientId, b)[|clientId| + 1..];
    }
  }

  /** The operation ids this bridge is still waiting on. */
  function PendingOps(b: Bridge): set<string> {
    set k | k in b.waits && StartsWith(k, b.id + ".") :: k[|b.id| + 1..]
  }

  lemma {:induction false} PendingOpsHasKey(b: Bridge, op: string)
    ensures op in PendingOps(b) <==> WaitKey(b.id, op) in b.waits
  {
    var key := WaitKey(b.id, op);
    assert StartsWith(key, b.id + ".") by {
      assert key[..|b.id + "."|] == b.id + ".";
    }
    assert key[|b.id| + 1..] == op;
    if op in PendingOps(b) {
      var k :| k in b.waits && StartsWith(k, b.id + ".") && k[|b.id| + 1..] == op;
      assert k == k[..|b.id| + 1] + k[|b.id| + 1..];
      assert k == key;
    }
  }

  const DeadlineText := "The client failed to respond within " + DecimalString(CallbackTable.DefaultTimeout) + "s"

  lemma DeadlineTextNamesTheTimeout()
    ensures DeadlineText == "The client failed to respond within 10s"
  {
    assert DecimalString(1) == "1";
    assert DecimalString(10) == DecimalString(1) + "0";
  }

  /** `timeout_callback`'s envelope. */
  function TimeoutMessage(opId: string): (m: Envelope)
    ensures m.operation == "timeout" && m.id == opId
    ensures m.data == JObj(map["error" := JStr(DeadlineText)])
  {
    Envelope("timeout", JObj(map["error" := JStr(DeadlineText)]), opId)
  }

  /** `reconnect_callback`'s envelope; the source reuses the deadline text as
      its error. */
  function ReconnectionMessage(opId: string): (m: Envelope)
    ensures m.operation == "reconnection" && m.id == opId
    ensures m.data == JObj(map["error" := JStr(DeadlineText)])
  {
    Envelope("reconnection", JObj(map["error" := JStr(DeadlineText)]), opId)
  }

  /** The subject `handle_operations` subscribes to. */
  function OperationsSubscription(clientId: string): string {
    Join(["manager", "operations", clientId])
  }

  /** Implant-facing subject of the operations of a client. */
  function OperationsSubject(clientId: string): string {
    Join(["client", "operations", clientId])
  }

  /** Operator-facing subject the source publishes every response of a client
      on. */
  function OperatorSubjectAsWritten(clientId: string): string {
    Join(["manager", "responses", clientId])
  }

  /** Operator-facing subject per operation, the one the command primitives
      wait on. */
  function OperatorSubject(clientId: string, opId: string): string {
    Join(["manager", "responses", clientId, opId])
  }

  /** The subscription of `handle_responses` as written. */
  function ResponsesSubscriptionAsWritten(clientId: string): string {
    Join(["client", "responses", clientId])
  }

  /** The subscription that receives what the transport tier publishes for
      this client. */
  function ResponsesSubscription(clientId: string): string {
    Join(["client", "response", clientId, "*"])
  }

  /** One iteration of `handle_operations`: an unparseable operation, or
      one whose data is not an object, fails validation and is skipped;
      otherwise the wait for `<client>.<op>` is registered (kept if
      already there) before the operation is forwarded verbatim to the
      implant-facing subject. */
  function HandleOperation(b: Bridge, parsed: Option<Envelope>): (r: (Bridge, seq<Pub>))
    ensures parsed.None? || !DictData(parsed.value) ==> r == (b, [])
    ensures parsed.Some? && DictData(parsed.value) ==>
              var m := parsed.value;
              && r.0.id == b.id
              && r.0.waits == CallbackTable.Wait(b.waits, WaitKey(b.id, m.id))
              && m.id in PendingOps(r.0)
              && r.1 == [Publication(OperationsSubject(b.id), m)]
  {
    match parsed
    case None => (b, [])
    case Some(m) =>
      if !DictData(m) then (b, []) else
      var b' := b.(waits := CallbackTable.Wait(b.waits, WaitKey(b.id, m.id)));
      PendingOpsHasKey(b', m.id);
      (b', [Publication(OperationsSubject(b.id), m)])
  }

  /** One iteration of `handle_responses` as written: a response that fails
      validation (no parse, or data that is not an object) is skipped;
      otherwise trigger the wait of the response's operation, then republish the response unchanged on the
      client-wide operator subject. */
  function HandleResponseAsWritten(b: Bridge, parsed: Option<Envelope>): (r: (Bridge, seq<Pub>))
    ensures parsed.None? || !DictData(parsed.value) ==> r == (b, [])
    ensures parsed.Some? && DictData(parsed.value) ==>
              && r.0 == b.(waits := CallbackTable.Trigger(b.waits, WaitKey(b.id, parsed.value.id)).0)
              && r.1 == [Publication(OperatorSubjectAsWritten(b.id), parsed.value)]
  {
    match parsed
    case None => (b, [])
    case Some(m) =>
      if !DictData(m) then (b, []) else
      (b.(waits := CallbackTable.Trigger(b.waits, WaitKey(b.id, m.id)).0),
       [Publication(OperatorSubjectAsWritten(b.id), m)])
  }

  /** Corrected `handle_responses` step: a response that fails validation
      is skipped as before; a valid one is republished on the subject of its
      own operation. */
  function HandleResponse(b: Bridge, parsed: Option<Envelope>): (r: (Bridge, seq<Pub>))
    ensures parsed.None? || !DictData(parsed.value) ==> r == (b, [])
    ensures parsed.Some? && DictData(parsed.value) ==>
              var m := parsed.value;
              && r.0.id == b.id
              && r.0.waits == CallbackTable.Trigger(b.waits, WaitKey(b.id, m.id)).0
              && r.0.waits.Keys == b.waits.Keys
              && (WaitKey(b.id, m.id) in b.waits ==> r.0.waits[WaitKey(b.id, m.id)])
              && r.1 == [Publication(OperatorSubject(b.id, m.id), m)]
  {
    match parsed
    case None => (b, [])
    case Some(m) =>
      if !DictData(m) then (b, []) else
      PendingOpsHasKey(b, m.id);
      (b.(waits := CallbackTable.Trigger(b.waits, WaitKey(b.id, m.id)).0),
       [Publication(OperatorSubject(b.id, m.id), m)])
  }

  /** The wait of operation `opId` resolves, as written: on timeout the source
      calls the zero-argument `on_timeout` lambda with the key, which raises
      before anything is published; the entry is removed in every case. */
  function ResolveWaitAsWritten(b: Bridge, opId: string): (r: (Bridge, seq<Pub>))
    ensures r.0 == b.(waits := CallbackTable.Resolve(b.waits, WaitKey(b.id, opId)).0)
    ensures opId !in PendingOps(r.0)
    ensures r.1 == []
  {
    var b' := b.(waits := CallbackTable.Resolve(b.waits, WaitKey(b.id, opId)).0);
    PendingOpsHasKey(b', opId);
    (b', [])
  }

  /** Corrected resolution: a wait that times out publishes exactly one
      `timeout` envelope for its operation; a delivered or missing wait
      publishes nothing; the entry is removed in every case. */
  function ResolveWait(b: Bridge, opId: string): (r: (Bridge, seq<Pub>))
    ensures r.0.id == b.id
    ensures r.0.waits == CallbackTable.Resolve(b.waits, WaitKey(b.id, opId)).0
    ensures opId !in PendingOps(r.0)
    ensures |r.1| <= 1
    ensures |r.1| == 1 <==> WaitKey(b.id, opId) in b.waits && !b.waits[WaitKey(b.id, opId)]
    ensures |r.1| == 1 ==> r.1[0] == Publication(OperatorSubject(b.id, opId), TimeoutMessage(opId))
  {
    var (waits, outcome) := CallbackTable.Resolve(b.waits, WaitKey(b.id, opId));
    var b' := b.(waits := waits);
    PendingOpsHasKey(b', opId);
    if outcome == CallbackTable.TimedOut then
      (b', [Publication(OperatorSubject(b.id, opId), TimeoutMessage(opId))])
    else (b', [])
  }

  /** The end of `run` as written: `cleanup` is called without being awaited,
      so its body never runs and no `reconnection` envelope is published. */
  function TeardownAsWritten(b: Bridge): (pubs: set<Pub>)
    ensures pubs == {}
  {
    {}
  }

  /** Corrected teardown: one `reconnection` envelope per outstanding wait, on
      the subject of its operation, and nothing else. */
  function Teardown(b: Bridge): (pubs: set<Pub>)
    ensures forall op :: op in PendingOps(b) ==>
              Publication(OperatorSubject(b.id, op), ReconnectionMessage(op)) in pubs
    ensures forall p :: p in pubs ==>
              exists op :: op in PendingOps(b) && p == Publication(OperatorSubject(b.id, op), ReconnectionMessage(op))
  {
    set op | op in PendingOps(b) :: Publication(OperatorSubject(b.id, op), ReconnectionMessage(op))
  }

  /** An operation issued and never answered is reported as timed out exactly
      once by the corrected bridge; one answered before the deadline is not
      reported; the source as written reports neither. The operation and
      its answer are valid envelopes. */
  lemma {:induction false} UnansweredOperationTimesOutOnce(b: Bridge, m: Envelope, answered: bool)
    requires DictData(m) && m.id !in PendingOps(b)
    ensures var (issued, _) := HandleOperation(b, Some(m));
            var seen := if answered then HandleResponse(issued, Some(m)).0 else issued;
            var (after, pubs) := ResolveWait(seen, m.id);
            && (answered ==> pubs == [])
            && (!answered ==> pubs == [Publication(OperatorSubject(b.id, m.id), TimeoutMessage(m.id))])
            && ResolveWait(after, m.id).1 == []
            && ResolveWaitAsWritten(seen, m.id).1 == []
  {
    PendingOpsHasKey(b, m.id);
    var (issued, _) := HandleOperation(b, Some(m));
    PendingOpsHasKey(issued, m.id);
    var key := WaitKey(b.id, m.id);
    assert !issued.waits[key];
    if answered {
      var seen := HandleResponse(issued, Some(m)).0;
      assert seen.waits[key];
    }
  }

  /** A reply whose data is not an object, such as a bare string, fails
      validation: the bridge neither republishes it nor triggers the wait,
      so the issued operation is reported as timed out at its deadline. */
  lemma NonObjectReplyTimesOut(b: Bridge, m: Envelope, reply: Envelope)
    requires DictData(m) && m.id !in PendingOps(b)
    requires reply.id == m.id && !DictData(reply)
    ensures var (issued, _) := HandleOperation(b, Some(m));
            var (seen, republished) := HandleResponse(issued, Some(reply));
            && republished == []
            && ResolveWait(seen, m.id).1 == [Publication(OperatorSubject(b.id, m.id), TimeoutMessage(m.id))]
  {
    PendingOpsHasKey(b, m.id);
    var (issued, _) := HandleOperation(b, Some(m));
    assert !issued.waits[WaitKey(b.id, m.id)];
  }

  /** The bridge supervisor's map: at most one bridge per implant id. */
  type Bridges = map<string, Bridge>

  /** Every bridge is stored under its own client id. */
  predicate WellKeyed(bs: Bridges) {
    forall k :: k in bs ==> bs[k].id == k
  }

  /** `start_client`: installs a fresh bridge for `id`, replacing any entry. */
  function StartClient(bs: Bridges, id: string): (r: Bridges)
    ensures r.Keys == bs.Keys + {id}
    ensures r[id].id == id && PendingOps(r[id]) == {}
    ensures forall k :: k in bs && k != id ==> r[k] == bs[k]
  {
    bs[id := NewBridge(id)]
  }

  /** Starting a bridge keeps every bridge under its own id, and removing a
      bridge that was just started publishes nothing and leaves the other
      bridges as they were. */
  lemma StartThenRemove(bs: Bridges, id: string)
    ensures WellKeyed(bs) ==> WellKeyed(StartClient(bs, id))
    ensures RemoveClient(StartClient(bs, id), id) == (bs - {id}, {})
  {
    var started := StartClient(bs, id);
    assert PendingOps(started[id]) == {};
    assert forall p :: p !in Teardown(started[id]);
    assert Teardown(started[id]) == {};
    assert started - {id} == bs - {id};
  }

  /** `remove_client`: an unknown id is logged and nothing changes; otherwise
      that bridge is torn down and exactly its key is deleted. */
  function RemoveClient(bs: Bridges, id: string): (r: (Bridges, set<Pub>))
    ensures id !in bs ==> r == (bs, {})
    ensures id in bs ==> r.0.Keys == bs.Keys - {id} && r.1 == Teardown(bs[id])
    ensures forall k :: k in r.0 ==> r.0[k] == bs[k]
  {
    if id !in bs then (bs, {}) else (bs - {id}, Teardown(bs[id]))
  }

  /** `connect_client`: any existing bridge for `id` is removed (and torn
      down) before a fresh one is started; other ids are untouched. */
  function ConnectClient(bs: Bridges, id: string): (r: (Bridges, set<Pub>))
    ensures r.0.Keys == bs.Keys + {id}
    ensures r.0[id].id == id && PendingOps(r.0[id]) == {}
    ensures forall k :: k in bs && k != id ==> r.0[k] == bs[k]
    ensures r.1 == (if id in bs then Teardown(bs[id]) else {})
    ensures WellKeyed(bs) ==> WellKeyed(r.0)
  {
    var (removed, pubs) := if id in bs then RemoveClient(bs, id) else (bs, {});
    (StartClient(removed, id), pubs)
  }

  /** A reconnect resolves every operation pending on the old bridge as
      `reconnection` and the replacement starts with nothing pending. */
  lemma ReconnectSupersedesPendingWaits(bs: Bridges, id: string, op: string)
    requires WellKeyed(bs)
    requires id in bs && op in PendingOps(bs[id])
    ensures var (after, pubs) := ConnectClient(bs, id);
            && Publication(OperatorSubject(id, op), ReconnectionMessage(op)) in pubs
            && op !in PendingOps(after[id])
  {
  }

  /** The old bridge's wait timers are separate tasks (`wait_for_callback`
      in the callback manager) that a reconnect does not cancel. With only
      the `on_timeout` and `cleanup` corrections, an unanswered operation of
      the replaced bridge would be answered twice: `reconnection` at the
      reconnect, then `timeout` when its old timer reaches the deadline.
      `ConnectClient` models the intended behaviour, which drops the old
      bridge's waits together with their timers. */
  lemma SupersededWaitStillTimesOut(bs: Bridges, id: string, op: string)
    requires WellKeyed(bs) && id in bs
    requires WaitKey(id, op) in bs[id].waits && !bs[id].waits[WaitKey(id, op)]
    ensures Publication(OperatorSubject(id, op), ReconnectionMessage(op)) in ConnectClient(bs, id).1
    ensures ResolveWait(bs[id], op).1 == [Publication(OperatorSubject(id, op), TimeoutMessage(op))]
    ensures op !in PendingOps(ConnectClient(bs, id).0[id])
  {
    PendingOpsHasKey(bs[id], op);
  }

  /** Any number of connect signals for the same id leave exactly one fresh
      bridge for it. */
  lemma RepeatedConnectsLeaveOneFreshBridge(bs: Bridges, id: string)
    ensures ConnectClient(ConnectClient(bs, id).0, id).0 == ConnectClient(bs, id).0
  {
  }
}

=== FILE: nats_routing.dfy ===
/** The transport tier's bus side: where messages forwarded by the connection
    registry are published, and how operations arriving on
    `client.operations.<id>` are queued for their implant. */
module NatsRouting {
  import opened Common
  import opened Subjects
  import TransportRegistry

  const ConnectSubject := "client.connect"
  const OperationsPrefix := "client.operations."

  /** What is serialised on a publication: the bare client id (connect
      signal) or the whole envelope. */
  datatype Payload = ClientId(id: string) | Serialized(msg: Envelope)

  /** The transport tier's subscription for operations of every client. */
  function OperationsSubscription(): string {
    Join(["client", "operations", "*"])
  }

  /** The subject the manager tier publishes an operation for `id` on. */
  function OperationsSubject(id: string): string {
    Join(["client", "operations", id])
  }

  /** `send_message`: `connect` goes to `client.connect` carrying the client
      id; everything else goes to `client.response.<id>.<msgId>` carrying the
      envelope. */
  function SendMessage(id: string, m: Envelope): (p: Publication<Payload>)
    ensures m.operation == "connect" ==> p == Publication(ConnectSubject, ClientId(id))
    ensures m.operation != "connect" ==>
              p.payload == Serialized(m) && p.subject == "client.response." + id + "." + m.id
  {
    if m.operation == "connect" then Publication(ConnectSubject, ClientId(id))
    else
      Join4("client", "response", id, m.id);
      Publication(Join(["client", "response", id, m.id]), Serialized(m))
  }

  /** A response subject names its client and operation: splitting it gives
      back both ids, so responses for different operations or clients never
      share a subject. */
  lemma {:induction false} ResponseSubjectNamesClientAndOperation(id: string, m: Envelope)
    requires m.operation != "connect"
    requires ValidToken(id) && ValidToken(m.id)
    ensures Split(SendMessage(id, m).subject) == ["client", "response", id, m.id]
  {
    SplitJoin(["client", "response", id, m.id]);
  }

  /** The client id of an incoming operation is its subject with the
      `client.operations.` prefix removed. */
  function ClientIdOf(subject: string): string {
    RemovePrefix(subject, OperationsPrefix)
  }

  /** Routing an operation published for `id` recovers `id`. */
  lemma OperationSubjectRoundTrip(id: string)
    ensures ClientIdOf(OperationsSubject(id)) == id
  {
    Join3("client", "operations", id);
    RemovePrefixOfConcat(OperationsPrefix, id);
  }

  /** One delivery on `client.operations.*`: its subject, the parse of its
      body (`None` when it does not validate) and the clock at arrival. */
  datatype Delivery = Delivery(subject: string, parsed: Option<Envelope>, at: int)

  /** One iteration of the subscription loop: an unparseable body is skipped
      with the registry unchanged, a parsed one is queued for its client. */
  function ReceiveStep(clients: TransportRegistry.Clients, d: Delivery): (r: TransportRegistry.Clients)
    ensures d.parsed.None? ==> r == clients
    ensures d.parsed.Some? ==>
              var id := ClientIdOf(d.subject);
              r.Keys == clients.Keys + {id}
              && r[id].queue == TransportRegistry.QueueOf(clients, id) + [d.parsed.value]
              && (forall k :: k in clients && k != id ==> r[k] == clients[k])
  {
    match d.parsed
    case None => clients
    case Some(m) => TransportRegistry.Enqueue(clients, ClientIdOf(d.subject), m, d.at)
  }

  /** The subscription loop over a sequence of deliveries. */
  function ReceiveAll(clients: TransportRegistry.Clients, ds: seq<Delivery>): (r: TransportRegistry.Clients)
    ensures clients.Keys <= r.Keys
    ensures forall i :: 0 <= i < |ds| && ds[i].parsed.Some? ==> ClientIdOf(ds[i].subject) in r
    decreases |ds|
  {
    if |ds| == 0 then clients
    else
      assert forall i :: 1 <= i < |ds| ==> ds[1..][i - 1] == ds[i];
      ReceiveAll(ReceiveStep(clients, ds[0]), ds[1..])
  }

  /** The parsed messages among `ds` addressed to `id`, in arrival order. */
  function ParsedFor(ds: seq<Delivery>, id: string): seq<Envelope>
    decreases |ds|
  {
    if |ds| == 0 then []
    else if ds[0].parsed.Some? && ClientIdOf(ds[0].subject) == id then [ds[0].parsed.value] + ParsedFor(ds[1..], id)
    else ParsedFor(ds[1..], id)
  }

  /** One delivery adds its message to the queue of the client it names,
      and nothing to any other queue. */
  lemma ReceiveStepQueue(clients: TransportRegistry.Clients, d: Delivery, id: string)
    ensures TransportRegistry.QueueOf(ReceiveStep(clients, d), id)
            == TransportRegistry.QueueOf(clients, id)
               + (if d.parsed.Some? && ClientIdOf(d.subject) == id then [d.parsed.value] else [])
  {
  }

  /** Every parsed operation for a client ends up in that client's queue, after
      what was already queued and in arrival order; unparseable deliveries and
      deliveries for other clients add nothing to it. */
  lemma {:induction false} ReceiveAllQueuesInArrivalOrder(clients: TransportRegistry.Clients, ds: seq<Delivery>, id: string)
    ensures var r := ReceiveAll(clients, ds);
            TransportRegistry.QueueOf(r, id) == TransportRegistry.QueueOf(clients, id) + ParsedFor(ds, id)
    decreases |ds|
  {
    if |ds| > 0 {
      var next := ReceiveStep(clients, ds[0]);
      ReceiveStepQueue(clients, ds[0], id);
      ReceiveAllQueuesInArrivalOrder(next, ds[1..], id);
    }
  }
}

=== FILE: ordered_dict.dfy ===
/** A Python dictionary as an association list in insertion order: assigning
    an existing key replaces its value in place, a new key is appended. */
module OrderedDict {
  import opened Common

  type Dict<K, V> = seq<(K, V)>

  ghost predicate UniqueKeys<K, V>(d: Dict<K, V>) {
    forall i, j :: 0 <= i < j < |d| ==> d[i].0 != d[j].0
  }

  function Lookup<K(==,!new), V>(d: Dict<K, V>, k: K): Option<V>
    decreases |d|
  {
    if |d| == 0 then None
    else if d[0].0 == k then Some(d[0].1)
    else Lookup(d[1..], k)
  }

  /** `d[k] = v`. */
  function Put<K(==,!new), V>(d: Dict<K, V>, k: K, v: V): (r: Dict<K, V>)
    ensures Lookup(r, k) == Some(v)
    ensures forall k' :: k' != k ==> Lookup(r, k') == Lookup(d, k')
    ensures Lookup(d, k).Some? ==> |r| == |d|
    ensures Lookup(d, k).None? ==> r == d + [(k, v)]
    decreases |d|
  {
    if |d| == 0 then [(k, v)]
    else if d[0].0 == k then [(k, v)] + d[1..]
    else
      assert d == [d[0]] + d[1..];
      [d[0]] + Put(d[1..], k, v)
  }

  /** Assignment keeps every key unique. */
  lemma {:induction false} PutKeepsKeysUnique<K(!new), V>(d: Dict<K, V>, k: K, v: V)
    requires UniqueKeys(d)
    ensures UniqueKeys(Put(d, k, v))
    decreases |d|
  {
    if |d| > 0 && d[0].0 != k {
      assert UniqueKeys(d[1..]);
      PutKeepsKeysUnique(d[1..], k, v);
      var rest := Put(d[1..], k, v);
      forall i | 0 <= i < |rest| ensures rest[i].0 != d[0].0 {
        LookupFindsEntry(rest, rest[i].0, rest[i].1);
        if rest[i].0 != k {
          assert Lookup(d[1..], rest[i].0).Some?;
          LookupSomeIsKey(d[1..], rest[i].0);
        }
      }
    } else if |d| > 0 {
      forall i | 1 <= i < |d| ensures d[i].0 != k {
        assert d[0].0 != d[i].0;
      }
    }
  }

  lemma PutPreservesUniqueKeys<K(!new), V>(d: Dict<K, V>, k: K, v: V)
    ensures UniqueKeys(d) ==> UniqueKeys(Put(d, k, v))
  {
    if UniqueKeys(d) {
      PutKeepsKeysUnique(d, k, v);
    }
  }

  /** In a dictionary with unique keys, lookup finds exactly the stored pair. */
  lemma {:induction false} LookupFindsEntry<K(!new), V>(d: Dict<K, V>, k: K, v: V)
    requires UniqueKeys(d)
    ensures Lookup(d, k) == Some(v) <==> (k, v) in d
    decreases |d|
  {
    if |d| > 0 {
      assert UniqueKeys(d[1..]);
      LookupFindsEntry(d[1..], k, v);
      assert d == [d[0]] + d[1..];
    }
  }

  /** A key that can be looked up is the key of some stored pair. */
  lemma {:induction false} LookupSomeIsKey<K(!new), V>(d: Dict<K, V>, k: K)
    requires Lookup(d, k).Some?
    ensures exists i :: 0 <= i < |d| && d[i].0 == k
    decreases |d|
  {
    if d[0].0 != k {
      LookupSomeIsKey(d[1..], k);
      var i :| 0 <= i < |d[1..]| && d[1..][i].0 == k;
      assert d[i + 1].0 == k;
    }
  }
}

=== FILE: page_comm.dfy ===
/** The implant's communication layer, newer version: transport plugins are
    tried in descending priority, the connect message is sent on
    establishment, incoming payloads are JSON arrays of messages dispatched
    in order, sending before establishment is a logged no-op, and teardown
    keeps the registered callbacks. */
module PageComm {
  import opened Common
  import opened ImplantComm

  /** The module-level variables of the layer. */
  datatype State = State(
    plugins: seq<PluginClass>,
    callbacks: Callbacks,
    active: Option<PluginClass>,
    /** Whether `plugin_send_function` is set. */
    sendBound: bool)

  const Initial := State([], map[], None, false)

  /** What a call does: the new state, the messages handed to the active
      plugin's `send`, and the exception it throws, if any. */
  datatype Step = Step(state: State, sent: seq<Sent>, error: Option<JsError>)

  predicate SortedByPriority(s: seq<PluginClass>) {
    forall i, j :: 0 <= i < j < |s| ==> s[i].priority >= s[j].priority
  }

  /** Inserts `p` before the first plugin of lower or equal priority. */
  function Insert(p: PluginClass, s: seq<PluginClass>): (r: seq<PluginClass>)
    ensures |r| == |s| + 1
    ensures r[0] == p || (|s| > 0 && r[0] == s[0])
    decreases |s|
  {
    if |s| == 0 || p.priority >= s[0].priority then [p] + s
    else [s[0]] + Insert(p, s[1..])
  }

  lemma {:induction false} InsertKeepsSorted(p: PluginClass, s: seq<PluginClass>)
    requires SortedByPriority(s)
    ensures SortedByPriority(Insert(p, s))
    decreases |s|
  {
    if |s| > 0 && p.priority < s[0].priority {
      assert SortedByPriority(s[1..]);
      InsertKeepsSorted(p, s[1..]);
    }
  }

  lemma {:induction false} InsertPermutes(p: PluginClass, s: seq<PluginClass>)
    ensures multiset(Insert(p, s)) == multiset(s) + multiset{p}
    decreases |s|
  {
    if |s| > 0 && p.priority < s[0].priority {
      InsertPermutes(p, s[1..]);
      assert s == [s[0]] + s[1..];
    }
  }

  /** The intended `plugins.sort`: descending `priority`. */
  function SortByPriority(s: seq<PluginClass>): (r: seq<PluginClass>)
    ensures SortedByPriority(r)
    ensures multiset(r) == multiset(s)
    decreases |s|
  {
    if |s| == 0 then []
    else
      var rest := SortByPriority(s[1..]);
      InsertStep(s, rest);
      Insert(s[0], rest)
  }

  /** Inserting the head into the sorted tail sorts the whole list. */
  lemma InsertStep(s: seq<PluginClass>, rest: seq<PluginClass>)
    requires |s| > 0 && SortedByPriority(rest) && multiset(rest) == multiset(s[1..])
    ensures SortedByPriority(Insert(s[0], rest))
    ensures multiset(Insert(s[0], rest)) == multiset(s)
  {
    InsertKeepsSorted(s[0], rest);
    InsertPermutes(s[0], rest);
    assert s == [s[0]] + s[1..];
  }

  /** `find_plugin` as written: the comparator reads `priority` from each
      class's prototype, but `priority` is a class field, so it is undefined
      there; every comparison is NaN, read as "equal", and the stable sort
      keeps registration order. */
  function FindPluginAsWritten(plugins: seq<PluginClass>): (r: Option<PluginClass>)
    ensures r.None? <==> forall i :: 0 <= i < |plugins| ==> !plugins[i].constructs
    ensures r.Some? ==> exists i :: 0 <= i < |plugins| && plugins[i] == r.value && r.value.constructs
                                    && forall j :: 0 <= j < i ==> !plugins[j].constructs
  {
    FirstConstructible(plugins)
  }

  const Xhr := PluginClass("XhrPlugin", true, 5, true)
  const Websocket := PluginClass("WebsocketPlugin", true, 10, true)

  /** With the XHR plugin (priority 5) registered before the WebSocket plugin
      (priority 10) and both constructible, the as-written selection picks
      XHR, while the intended selection picks WebSocket. */
  lemma PriorityIgnoredAsWritten()
    ensures FindPluginAsWritten([Xhr, Websocket]) == Some(Xhr)
    ensures FindPlugin([Xhr, Websocket]) == Some(Websocket)
  {
    assert SortByPriority([Websocket]) == [Websocket];
    assert [Xhr, Websocket][1..] == [Websocket];
    assert SortByPriority([Xhr, Websocket]) == Insert(Xhr, [Websocket]);
  }

  /** The intended `find_plugin`: the first constructible plugin in
      descending priority. */
  function FindPlugin(plugins: seq<PluginClass>): (r: Option<PluginClass>)
    ensures r.None? <==> forall i :: 0 <= i < |plugins| ==> !plugins[i].constructs
    ensures r.Some? ==> r.value in plugins && r.value.constructs
  {
    SortedSelectionSound(plugins);
    FirstConstructible(SortByPriority(plugins))
  }

  /** Sorting neither adds nor loses a constructible plugin. */
  lemma SortedSelectionSound(plugins: seq<PluginClass>)
    ensures FirstConstructible(SortByPriority(plugins)).None? <==> forall i :: 0 <= i < |plugins| ==> !plugins[i].constructs
    ensures FirstConstructible(SortByPriority(plugins)).Some? ==> FirstConstructible(SortByPriority(plugins)).value in plugins
  {
    var sorted := SortByPriority(plugins);
    if FirstConstructible(sorted).None? {
      forall i | 0 <= i < |plugins| ensures !plugins[i].constructs {
        var m := SortedContains(plugins, i);
      }
    } else {
      assert FirstConstructible(sorted).value in multiset(sorted);
    }
  }

  /** The intended selection finds a plugin exactly when some registered
      plugin can be constructed, and it has the highest priority among
      those. */
  lemma FindPluginPicksHighestPriority(plugins: seq<PluginClass>)
    ensures FindPlugin(plugins).None? <==> forall i :: 0 <= i < |plugins| ==> !plugins[i].constructs
    ensures FindPlugin(plugins).Some? ==>
              var p := FindPlugin(plugins).value;
              && p in plugins && p.constructs
              && forall j :: 0 <= j < |plugins| && plugins[j].constructs ==> plugins[j].priority <= p.priority
  {
    var sorted := SortByPriority(plugins);
    if FindPlugin(plugins).Some? {
      var p := FindPlugin(plugins).value;
      forall j | 0 <= j < |plugins| && plugins[j].constructs
        ensures plugins[j].priority <= p.priority
      {
        var m := SortedContains(plugins, j);
        FirstOfSortedIsHighest(sorted, m);
      }
    }
  }

  /** Every registered plugin has a place in the sorted list. */
  lemma SortedContains(plugins: seq<PluginClass>, i: nat) returns (m: nat)
    requires i < |plugins|
    ensures m < |SortByPriority(plugins)| && SortByPriority(plugins)[m] == plugins[i]
  {
    assert plugins[i] in multiset(plugins);
    assert plugins[i] in SortByPriority(plugins);
    m :| m < |SortByPriority(plugins)| && SortByPriority(plugins)[m] == plugins[i];
  }

  /** In a list sorted by descending priority, the first constructible plugin
      has the highest priority among the constructible ones. */
  lemma FirstOfSortedIsHighest(sorted: seq<PluginClass>, m: nat)
    requires SortedByPriority(sorted) && FirstConstructible(sorted).Some?
    requires m < |sorted| && sorted[m].constructs
    ensures sorted[m].priority <= FirstConstructible(sorted).value.priority
  {
    var p := FirstConstructible(sorted).value;
    var k :| 0 <= k < |sorted| && sorted[k] == p && p.constructs
             && forall j :: 0 <= j < k ==> !sorted[j].constructs;
    assert k <= m;
  }

  /** `{operation: "connect", data: ""}`. */
  const ConnectMessage := JObj(map["operation" := JStr("connect"), "data" := JStr("")])

  /** `establish_communication`: the plugin list is sorted in place and the
      chosen plugin becomes active, gets the message handler, the send
      function and the connect message. When no plugin can be constructed
      the error is only logged, and the handler registration on the missing
      plugin then throws. */
  function Establish(st: State): (r: Step)
    ensures r.state.callbacks == st.callbacks
    ensures multiset(r.state.plugins) == multiset(st.plugins)
    ensures r.state.active == FindPlugin(st.plugins)
    ensures r.error.None? <==> FindPlugin(st.plugins).Some?
    ensures r.error.Some? ==> r.error == Some(TypeError) && r.sent == [] && r.state.sendBound == st.sendBound
    ensures r.error.None? ==>
              r.state.sendBound && r.sent == [Sent(FindPlugin(st.plugins).value, ConnectMessage)]
  {
    var sorted := SortByPriority(st.plugins);
    match FirstConstructible(sorted)
    case None => Step(st.(plugins := sorted, active := None), [], Some(TypeError))
    case Some(p) => Step(st.(plugins := sorted, active := Some(p), sendBound := true), [Sent(p, ConnectMessage)], None)
  }

  /** Once established, every send goes through the plugin of highest
      priority that could be constructed; the connect message went there
      first. */
  lemma EstablishThenSend(st: State, data: Json)
    requires FindPlugin(st.plugins).Some?
    ensures var r := Establish(st);
            && r.sent[0].via == FindPlugin(st.plugins).value
            && Send(r.state, data).sent == [Sent(FindPlugin(st.plugins).value, data)]
  {
  }

  /** `send_message`: before establishment the call is logged and dropped;
      after a failed re-establishment the bound function finds no plugin,
      and that error is caught and logged too. Nothing is ever thrown. */
  function Send(st: State, data: Json): (r: Step)
    ensures r.state == st && r.error.None?
    ensures r.sent != [] <==> st.sendBound && st.active.Some?
    ensures r.sent != [] ==> r.sent == [Sent(st.active.value, data)]
  {
    if st.sendBound && st.active.Some? then Step(st, [Sent(st.active.value, data)], None)
    else Step(st, [], None)
  }

  /** `teardown_communication`: with an active plugin, it and the send
      function are cleared and the callbacks are kept; without one, the call
      on the missing plugin throws and nothing changes. */
  function Teardown(st: State): (r: Step)
    ensures r.sent == []
    ensures st.active.None? ==> r.state == st && r.error == Some(TypeError)
    ensures st.active.Some? ==>
              && r.error.None?
              && r.state == State(st.plugins, st.callbacks, None, false)
  {
    if st.active.None? then Step(st, [], Some(TypeError))
    else Step(st.(active := None, sendBound := false), [], None)
  }

  /** After teardown nothing can be sent until the next establishment. */
  lemma NoSendAfterTeardown(st: State, data: Json)
    requires st.active.Some?
    ensures Send(Teardown(st).state, data).sent == []
  {
  }

  /** A message handler attached at establishment keeps seeing the callbacks
      registered before and after a teardown. */
  lemma TeardownKeepsCallbacks(st: State, op: string, cb: CallbackId)
    requires st.active.Some?
    ensures var st' := Teardown(st).state.(callbacks := RegisterMessageCallback(st.callbacks, op, cb));
            CallbacksFor(st'.callbacks, op) == CallbacksFor(st.callbacks, op) + [cb]
  {
  }

  /** The loop of the message handler: each message's callbacks run in
      order; the first message without an operation ends the whole batch. */
  function DispatchBatch(cbs: Callbacks, msgs: seq<Json>): (r: seq<Invocation>)
    ensures FirstUnaddressed(msgs) == 0 ==> r == []
    ensures FirstUnaddressed(msgs) > 0 ==> InvocationsFor(cbs, msgs[0]) <= r
    decreases |msgs|
  {
    if |msgs| == 0 || !Addressed(msgs[0]) then []
    else InvocationsFor(cbs, msgs[0]) + DispatchBatch(cbs, msgs[1..])
  }

  /** The message handler: only a string that parses to an array is
      dispatched. A non-string payload leaves the batch empty; a parse
      failure is logged; a parsed string is iterated by characters, none of
      which has an operation, so the loop ends at once; any other parsed
      value is not iterable and the `for … of` throws a TypeError before
      dispatching anything. */
  function Receive(st: State, incoming: Incoming): (r: Result<seq<Invocation>, JsError>)
    ensures r.Err? <==> incoming.Text? && incoming.parsed.Some? && !incoming.parsed.value.JArr? && !incoming.parsed.value.JStr?
    ensures r.Err? ==> r.error == TypeError
    ensures incoming.Text? && incoming.parsed.Some? && incoming.parsed.value.JArr? ==>
              r == Ok(DispatchBatch(st.callbacks, incoming.parsed.value.items))
    ensures r.Ok? && !(incoming.Text? && incoming.parsed.Some? && incoming.parsed.value.JArr?) ==> r.value == []
  {
    match incoming
    case Raw(_) => Ok([])
    case Text(None) => Ok([])
    case Text(Some(JArr(msgs))) => Ok(DispatchBatch(st.callbacks, msgs))
    case Text(Some(JStr(_))) => Ok([])
    case Text(Some(_)) => Err(TypeError)
  }

  /** Index of the first message without an operation, or the batch length. */
  function FirstUnaddressed(msgs: seq<Json>): (n: nat)
    ensures n <= |msgs|
    ensures forall i :: 0 <= i < n ==> Addressed(msgs[i])
    ensures n < |msgs| ==> !Addressed(msgs[n])
    decreases |msgs|
  {
    if |msgs| == 0 || !Addressed(msgs[0]) then 0 else 1 + FirstUnaddressed(msgs[1..])
  }

  /** Messages after the first one without an operation are never
      dispatched. */
  lemma {:induction false} BatchStopsAtFirstUnaddressed(cbs: Callbacks, msgs: seq<Json>)
    ensures DispatchBatch(cbs, msgs) == DispatchBatch(cbs, msgs[..FirstUnaddressed(msgs)])
    decreases |msgs|
  {
    if |msgs| > 0 && Addressed(msgs[0]) {
      BatchStopsAtFirstUnaddressed(cbs, msgs[1..]);
      assert msgs[..FirstUnaddressed(msgs)][1..] == msgs[1..][..FirstUnaddressed(msgs[1..])];
    }
  }

  /** A batch of addressed messages followed by more messages dispatches the
      first part completely, in order, before the rest. */
  lemma {:induction false} BatchConcat(cbs: Callbacks, a: seq<Json>, b: seq<Json>)
    requires forall i :: 0 <= i < |a| ==> Addressed(a[i])
    ensures DispatchBatch(cbs, a + b) == DispatchBatch(cbs, a) + DispatchBatch(cbs, b)
    decreases |a|
  {
    if |a| > 0 {
      assert (a + b)[0] == a[0];
      assert (a + b)[1..] == a[1..] + b;
      BatchConcat(cbs, a[1..], b);
      assert DispatchBatch(cbs, a + b) == InvocationsFor(cbs, a[0]) + DispatchBatch(cbs, a[1..] + b);
    } else {
      assert a + b == b;
    }
  }

  /** Every invocation of a batch is a callback registered for the operation
      of some addressed message, called with that message's data. */
  lemma {:induction false} BatchInvocationsAreRegistered(cbs: Callbacks, msgs: seq<Json>, k: nat)
    requires k < |DispatchBatch(cbs, msgs)|
    ensures exists i :: 0 <= i < FirstUnaddressed(msgs)
                        && KeyOf(OperationOf(msgs[i])).Some?
                        && DispatchBatch(cbs, msgs)[k].callback in CallbacksFor(cbs, KeyOf(OperationOf(msgs[i])).value)
                        && DispatchBatch(cbs, msgs)[k].data == DataOf(msgs[i])
    decreases |msgs|
  {
    var head := InvocationsFor(cbs, msgs[0]);
    if k < |head| {
      assert DispatchBatch(cbs, msgs)[k] == head[k];
      assert FirstUnaddressed(msgs) > 0;
    } else {
      assert DispatchBatch(cbs, msgs)[k] == DispatchBatch(cbs, msgs[1..])[k - |head|];
      BatchInvocationsAreRegistered(cbs, msgs[1..], k - |head|);
      var i :| 0 <= i < FirstUnaddressed(msgs[1..])
               && KeyOf(OperationOf(msgs[1..][i])).Some?
               && DispatchBatch(cbs, msgs[1..])[k - |head|].callback in CallbacksFor(cbs, KeyOf(OperationOf(msgs[1..][i])).value)
               && DispatchBatch(cbs, msgs[1..])[k - |head|].data == DataOf(msgs[1..][i]);
      assert msgs[1..][i] == msgs[i + 1];
    }
  }
}

=== FILE: plugin_dispatcher.dfy ===
/** The execution tier: one dispatcher per connected implant, which runs plugin
    methods as tracked tasks and publishes at most one response per handled
    invocation; and the supervisor's table, which holds one dispatcher per
    implant id. As written, a replaced dispatcher's message loop is never
    cancelled and keeps running beside the new one.

    Task objects are modelled by ids supplied by the caller; how a scheduled
    method ends (returns a value, is cancelled, raises) is an explicit event. */
module PluginDispatcher {
  import opened Common
  import opened Subjects

  datatype PluginMessage = PluginMessage(
    clientId: Option<string>,
    id: string,
    operation: string,
    data: Json,
    args: seq<Json>,
    kwargs: map<string, Json>)

  /** The message schema requires `client_id`; a message without one cannot
      be constructed. */
  predicate Valid(m: PluginMessage) {
    m.clientId.Some?
  }

  /** How the awaited method call ended. */
  datatype Completion = Returned(value: Json) | Cancelled | Raised

  /** What `run_method` leaves the task wrapper with: a reply to publish, or an
      exception that escapes the task (nothing is published). */
  datatype Outcome = Reply(msg: PluginMessage) | Escaped

  function UnknownOperationText(operation: string): string {
    "Unknown operation: " + operation
  }

  /** The reply line 22 of `run_method` tries to build for an unknown
      operation: it names no `client_id`. */
  function UnknownOperationReplyAsWritten(m: PluginMessage): PluginMessage {
    PluginMessage(None, m.id, "error", JObj(map["message" := JStr(UnknownOperationText(m.operation))]), [], map[])
  }

  /** `run_method` as written: building a message validates it, so the
      `error` reply for an unknown operation raises instead of being
      returned, and the exception escapes the task. */
  function RunMethodAsWritten(known: set<string>, m: PluginMessage, completion: Completion): (r: Outcome)
    ensures m.operation !in known ==> r == Escaped
    ensures m.operation in known ==> r == RunMethod(known, m, completion)
  {
    if m.operation !in known then
      var attempt := UnknownOperationReplyAsWritten(m);
      if Valid(attempt) then Reply(attempt) else Escaped
    else RunMethod(known, m, completion)
  }

  /** The as-written unknown-operation reply never validates, whatever the
      request looked like, while the corrected one does for every valid
      request. */
  lemma UnknownOperationReplyInvalidAsWritten(known: set<string>, m: PluginMessage, completion: Completion)
    requires m.operation !in known
    ensures !Valid(UnknownOperationReplyAsWritten(m))
    ensures Valid(m) ==> RunMethod(known, m, completion).Reply? && Valid(RunMethod(known, m, completion).msg)
  {
  }

  /** Corrected `run_method`: an unknown operation yields an `error` reply
      (no plugin instance, the completion is never consulted); a method that
      returns yields `result` with its value; a cancelled one yields
      `reconnect` with empty data; an exception escapes. Every reply carries
      the request's id and client id. */
  function RunMethod(known: set<string>, m: PluginMessage, completion: Completion): (r: Outcome)
    ensures m.operation !in known ==>
              r.Reply? && r.msg.operation == "error"
              && Get(r.msg.data, "message") == JStr(UnknownOperationText(m.operation))
    ensures m.operation in known ==>
              && (completion.Returned? ==> r.Reply? && r.msg.operation == "result" && r.msg.data == completion.value)
              && (completion.Cancelled? ==> r.Reply? && r.msg.operation == "reconnect" && r.msg.data == JObj(map[]))
              && (completion.Raised? ==> r.Escaped?)
    ensures r.Reply? ==> r.msg.id == m.id && r.msg.clientId == m.clientId
    ensures Valid(m) && r.Reply? ==> Valid(r.msg)
  {
    if m.operation !in known then
      Reply(PluginMessage(m.clientId, m.id, "error", JObj(map["message" := JStr(UnknownOperationText(m.operation))]), [], map[]))
    else
      match completion
      case Returned(v) => Reply(PluginMessage(m.clientId, m.id, "result", v, [], map[]))
      case Cancelled => Reply(PluginMessage(m.clientId, m.id, "reconnect", JObj(map[]), [], map[]))
      case Raised => Escaped
  }

  type TaskId = nat

  /** `tasks` is the list `self.tasks`; `requests` records, for each task,
      the message its `task_wrapper` closure was created for. */
  datatype Dispatcher = Dispatcher(clientId: string, tasks: seq<TaskId>, requests: map<TaskId, PluginMessage>)

  predicate NoDuplicates(s: seq<TaskId>) {
    forall i, j :: 0 <= i < j < |s| ==> s[i] != s[j]
  }

  /** Each task is listed once, and exactly the listed tasks have a
      recorded request. */
  predicate Tracked(d: Dispatcher) {
    && NoDuplicates(d.tasks)
    && (forall t :: t in d.tasks ==> t in d.requests)
    && (forall t :: t in d.requests ==> t in d.tasks)
  }

  function NewDispatcher(clientId: string): (r: Dispatcher)
    ensures r.clientId == clientId && r.tasks == [] && Tracked(r)
  {
    Dispatcher(clientId, [], map[])
  }

  /** `handle_message`: schedules the invocation of `m` as the new task
      `task` (a fresh task object, so distinct from every task still
      tracked) and tracks it. */
  function HandleMessage(d: Dispatcher, task: TaskId, m: PluginMessage): (r: Dispatcher)
    requires task !in d.tasks && task !in d.requests
    ensures r.clientId == d.clientId
    ensures |r.tasks| == |d.tasks| + 1 && r.tasks[..|d.tasks|] == d.tasks && r.tasks[|d.tasks|] == task
    ensures r.requests == d.requests[task := m]
    ensures Tracked(d) ==> Tracked(r)
  {
    d.(tasks := d.tasks + [task], requests := d.requests[task := m])
  }

  /** Python's `list.remove`: the first occurrence goes; an absent element
      raises, which the done-callback only logs, so the list is unchanged. */
  function RemoveFirst(s: seq<TaskId>, x: TaskId): (r: seq<TaskId>)
    ensures x in s ==> |r| == |s| - 1
    ensures x !in s ==> r == s
    ensures multiset(r) == multiset(s) - multiset{x}
  {
    if |s| == 0 then []
    else if s[0] == x then
      assert s == [s[0]] + s[1..];
      s[1..]
    else
      assert s == [s[0]] + s[1..];
      [s[0]] + RemoveFirst(s[1..], x)
  }

  /** Removing from a list without duplicates keeps it without duplicates
      and removes every occurrence. */
  lemma {:induction false} RemoveFirstKeepsDistinct(s: seq<TaskId>, x: TaskId)
    requires NoDuplicates(s)
    ensures NoDuplicates(RemoveFirst(s, x)) && x !in RemoveFirst(s, x)
  {
    if |s| > 0 {
      assert NoDuplicates(s[1..]);
      if s[0] == x {
        assert x !in s[1..];
      } else {
        RemoveFirstKeepsDistinct(s[1..], x);
        var rest := RemoveFirst(s[1..], x);
        assert s[0] !in s[1..];
        assert s[0] !in multiset(s[1..]);
        assert s[0] !in multiset(rest);
        ConsKeepsDistinct(s[0], rest);
      }
    }
  }

  lemma ConsKeepsDistinct(a: TaskId, t: seq<TaskId>)
    requires NoDuplicates(t) && a !in multiset(t)
    ensures NoDuplicates([a] + t)
  {
    forall i, j | 0 <= i < j < |[a] + t| ensures ([a] + t)[i] != ([a] + t)[j] {
      if i == 0 {
        assert ([a] + t)[j] == t[j - 1];
        assert t[j - 1] in multiset(t);
      }
    }
  }

  function ResponseSubject(clientId: string, opId: string): string {
    Join(["plugin", "response", clientId, opId])
  }

  /** The end of tracked task `task` whose `run_method` left `outcome`: a
      reply is published to `plugin.response.<client>.<id>` for the id of
      the request the task was created for, an escaping exception publishes
      nothing, and the done-callback removes the task exactly once either
      way. */
  function Finish(d: Dispatcher, task: TaskId, outcome: Outcome)
    : (r: (Dispatcher, Option<Publication<PluginMessage>>))
    requires task in d.requests
    ensures r.0.clientId == d.clientId
    ensures multiset(r.0.tasks) == multiset(d.tasks) - multiset{task}
    ensures r.0.requests == d.requests - {task}
    ensures r.1.Some? <==> outcome.Reply?
    ensures r.1.Some? ==> r.1.value == Publication(ResponseSubject(d.clientId, d.requests[task].id), outcome.msg)
  {
    var m := d.requests[task];
    var published := match outcome
      case Reply(reply) => Some(Publication(ResponseSubject(d.clientId, m.id), reply))
      case Escaped => None;
    (d.(tasks := RemoveFirst(d.tasks, task), requests := d.requests - {task}), published)
  }

  /** The end of task `task`, with the corrected `run_method` run on the
      request recorded for it. */
  function Complete(d: Dispatcher, task: TaskId, known: set<string>, completion: Completion)
    : (r: (Dispatcher, Option<Publication<PluginMessage>>))
    requires task in d.requests
    ensures r.0.clientId == d.clientId
    ensures multiset(r.0.tasks) == multiset(d.tasks) - multiset{task}
    ensures r.0.requests == d.requests - {task}
    ensures var m := d.requests[task];
            && (r.1.Some? <==> RunMethod(known, m, completion).Reply?)
            && (r.1.Some? ==> r.1.value == Publication(ResponseSubject(d.clientId, m.id), RunMethod(known, m, completion).msg))
  {
    Finish(d, task, RunMethod(known, d.requests[task], completion))
  }

  /** The end of task `task` as written. */
  function CompleteAsWritten(d: Dispatcher, task: TaskId, known: set<string>, completion: Completion)
    : (r: (Dispatcher, Option<Publication<PluginMessage>>))
    requires task in d.requests
    ensures r.0 == Complete(d, task, known, completion).0
    ensures d.requests[task].operation !in known ==> r.1.None?
    ensures d.requests[task].operation in known ==> r.1 == Complete(d, task, known, completion).1
  {
    Finish(d, task, RunMethodAsWritten(known, d.requests[task], completion))
  }

  /** A request for an unknown operation gets no response at all as written,
      so its caller waits out its deadline; corrected, it gets exactly one
      `error` response on its own subject that names the operation. */
  lemma UnknownOperationUnansweredAsWritten(d: Dispatcher, task: TaskId, known: set<string>, completion: Completion)
    requires task in d.requests && d.requests[task].operation !in known
    ensures CompleteAsWritten(d, task, known, completion).1.None?
    ensures var m := d.requests[task];
            var p := Complete(d, task, known, completion).1;
            && p.Some?
            && p.value.subject == ResponseSubject(d.clientId, m.id)
            && p.value.payload.operation == "error"
            && Get(p.value.payload.data, "message") == JStr(UnknownOperationText(m.operation))
  {
  }

  /** Removing a freshly appended element gives the list back. */
  lemma {:induction false} RemoveFirstAppended(s: seq<TaskId>, x: TaskId)
    requires x !in s
    ensures RemoveFirst(s + [x], x) == s
  {
    if |s| > 0 {
      assert (s + [x])[1..] == s[1..] + [x];
      RemoveFirstAppended(s[1..], x);
      assert [s[0]] + s[1..] == s;
    }
  }

  /** Handling `m` as a fresh task and then completing that task gives the
      dispatcher back exactly as it was, and the only thing published is
      the corrected reply to `m` on `m`'s own response subject. */
  lemma HandledTaskRemovedOnce(d: Dispatcher, task: TaskId, m: PluginMessage, known: set<string>, completion: Completion)
    requires task !in d.tasks && task !in d.requests
    ensures var (after, published) := Complete(HandleMessage(d, task, m), task, known, completion);
            && after == d
            && (published.Some? <==> RunMethod(known, m, completion).Reply?)
            && (published.Some? ==> published.value == Publication(ResponseSubject(d.clientId, m.id), RunMethod(known, m, completion).msg))
  {
    RemoveFirstAppended(d.tasks, task);
    assert d.requests[task := m] - {task} == d.requests;
  }

  /** Once its task completes, an invocation is no longer tracked, and the
      dispatcher stays `Tracked`. */
  lemma CompletedTaskNoLongerTracked(d: Dispatcher, task: TaskId, known: set<string>, completion: Completion)
    requires Tracked(d) && task in d.requests
    ensures var after := Complete(d, task, known, completion).0;
            Tracked(after) && task !in after.tasks && task !in after.requests
  {
    RemoveFirstKeepsDistinct(d.tasks, task);
    var after := Complete(d, task, known, completion).0;
    forall t ensures t in after.tasks <==> t in after.requests {
      if t != task {
        assert multiset(after.tasks)[t] == multiset(d.tasks)[t];
        assert t in after.tasks <==> t in multiset(after.tasks);
        assert t in d.tasks <==> t in multiset(d.tasks);
      }
    }
  }

  /** `teardown`: cancels every tracked task; the tasks stay tracked until
      their own completion removes them. */
  function Teardown(d: Dispatcher): (cancelled: set<TaskId>)
    ensures forall t :: t in cancelled <==> t in d.tasks
  {
    set t | t in d.tasks
  }

  /** A torn-down dispatcher answers each in-flight invocation of a known
      method with exactly one `reconnect` reply that carries the id and
      client id of the request that task was running, on that request's
      response subject. */
  lemma TeardownAnswersReconnect(d: Dispatcher, task: TaskId, known: set<string>)
    requires Tracked(d) && task in Teardown(d) && d.requests[task].operation in known
    ensures var m := d.requests[task];
            var (after, published) := Complete(d, task, known, Cancelled);
            && published.Some?
            && published.value.subject == ResponseSubject(d.clientId, m.id)
            && published.value.payload.operation == "reconnect"
            && published.value.payload.id == m.id
            && published.value.payload.clientId == m.clientId
            && |after.tasks| == |d.tasks| - 1
  {
  }

  type Dispatchers = map<string, Dispatcher>

  /** Every dispatcher is stored under its own client id. */
  predicate WellKeyed(ds: Dispatchers) {
    forall k :: k in ds ==> ds[k].clientId == k
  }

  /** `teardown_client`: an unknown id changes nothing; otherwise that
      dispatcher's tasks are cancelled and exactly its key is deleted. */
  function TeardownClient(ds: Dispatchers, id: string): (r: (Dispatchers, set<TaskId>))
    ensures id !in ds ==> r == (ds, {})
    ensures id in ds ==> r.0.Keys == ds.Keys - {id} && r.1 == Teardown(ds[id])
    ensures forall k :: k in r.0 ==> r.0[k] == ds[k]
  {
    if id !in ds then (ds, {}) else (ds - {id}, Teardown(ds[id]))
  }

  /** Tearing the same id down twice: the second call finds nothing and
      cancels nothing. */
  lemma TeardownClientIdempotent(ds: Dispatchers, id: string)
    ensures TeardownClient(TeardownClient(ds, id).0, id) == (TeardownClient(ds, id).0, {})
  {
  }

  /** `connect_client`: an existing dispatcher for the id is torn down and
      deleted before a fresh one is installed; other ids are untouched. */
  function ConnectClient(ds: Dispatchers, id: string): (r: (Dispatchers, set<TaskId>))
    ensures r.0.Keys == ds.Keys + {id}
    ensures r.0[id] == NewDispatcher(id)
    ensures forall k :: k in ds && k != id ==> r.0[k] == ds[k]
    ensures id in ds ==> r.1 == Teardown(ds[id])
    ensures id !in ds ==> r.1 == {}
    ensures WellKeyed(ds) ==> WellKeyed(r.0)
  {
    var (removed, cancelled) := if id in ds then TeardownClient(ds, id) else (ds, {});
    (removed[id := NewDispatcher(id)], cancelled)
  }

  /** A reconnect answers every invocation the old dispatcher of the id was
      running with a `reconnect` response on the response subject of the
      request that task was running, and the fresh dispatcher starts with
      nothing tracked. */
  lemma ReconnectAnswersOldTasks(ds: Dispatchers, id: string, task: TaskId, known: set<string>)
    requires WellKeyed(ds) && id in ds && Tracked(ds[id])
    requires task in ds[id].tasks && ds[id].requests[task].operation in known
    ensures var (after, cancelled) := ConnectClient(ds, id);
            && task in cancelled
            && after[id].tasks == []
            && var m := ds[id].requests[task];
               var published := Complete(ds[id], task, known, Cancelled).1;
               && published.Some?
               && published.value.subject == ResponseSubject(id, m.id)
               && published.value.payload.operation == "reconnect"
               && published.value.payload.id == m.id
  {
    TeardownAnswersReconnect(ds[id], task, known);
  }

  /** A second connect signal for the same id leaves the same table and
      cancels nothing, since the fresh dispatcher tracks no task. */
  lemma RepeatedConnectCancelsNothing(ds: Dispatchers, id: string)
    ensures ConnectClient(ConnectClient(ds, id).0, id) == (ConnectClient(ds, id).0, {})
  {
    var first := ConnectClient(ds, id).0;
    assert Teardown(first[id]) == {};
    assert (first - {id})[id := NewDispatcher(id)] == first;
  }

  /** The supervisor together with the message loops running in the
      process: `loops` counts, per client id, the `handle_messages` loops
      still subscribed to `plugin.run.<id>`. Each loop hands every
      invocation for its id to its own dispatcher. */
  datatype Supervisor = Supervisor(clients: Dispatchers, loops: multiset<string>)

  /** One running loop for each registered dispatcher and none otherwise. */
  predicate OneLoopPerClient(s: Supervisor) {
    && (forall k :: k in s.clients ==> s.loops[k] == 1)
    && (forall k :: k in s.loops ==> k in s.clients)
  }

  /** `connect_client` as written: `Client.teardown` cancels only the
      method tasks, never `handle_messages_task`, so the old loop keeps
      running beside the one the new `Client` starts. */
  function ConnectAsWritten(s: Supervisor, id: string): (r: Supervisor)
    ensures r.clients == ConnectClient(s.clients, id).0
    ensures r.loops[id] == s.loops[id] + 1
    ensures forall k :: k != id ==> r.loops[k] == s.loops[k]
  {
    Supervisor(ConnectClient(s.clients, id).0, s.loops + multiset{id})
  }

  /** Corrected `connect_client`: tearing a client down also cancels its
      message loop, so the new `Client`'s loop is the only one for the id. */
  function Connect(s: Supervisor, id: string): (r: Supervisor)
    ensures r.clients == ConnectClient(s.clients, id).0
    ensures r.loops[id] == 1
    ensures forall k :: k != id ==> r.loops[k] == s.loops[k]
  {
    Supervisor(ConnectClient(s.clients, id).0, s.loops[id := 1])
  }

  /** The corrected supervisor keeps exactly one loop per connected id. */
  lemma ConnectKeepsOneLoopPerClient(s: Supervisor, id: string)
    requires OneLoopPerClient(s)
    ensures OneLoopPerClient(Connect(s, id))
  {
  }

  /** As written, a reconnect of a connected id leaves two loops on
      `plugin.run.<id>`: every later invocation for the id is run twice. */
  lemma ReconnectDuplicatesLoopAsWritten(s: Supervisor, id: string)
    requires OneLoopPerClient(s) && id in s.clients
    ensures ConnectAsWritten(s, id).loops[id] == 2
    ensures !OneLoopPerClient(ConnectAsWritten(s, id))
  {
    var r := ConnectAsWritten(s, id);
    assert id in r.clients;
  }
}

=== FILE: plugin_loader.dfy ===
/** Plugin discovery: walking the plugin directory, choosing the plugin class
    of each module, keying plugins by name and building the method index
    `"<plugin>.<method>"` that the dispatchers consult.

    The directory walk is a sequence of file entries in walk order; what
    importing a module yields is the parameter `attrsOf`, which gives the
    module's attributes in `dir` order. */
module PluginLoader {
  import opened Common
  import opened Subjects
  import opened OrderedDict

  /** A class attribute as `inspect.getmembers` reports it. */
  datatype Member = Member(name: string, isFunction: bool)

  datatype PluginClass = PluginClass(name: string, members: seq<Member>)

  /** A module attribute: a proper subclass of the plugin base class, the base
      class itself (imported into every plugin module), or anything else. */
  datatype AttrKind = PluginSubclass(plugin: PluginClass) | BasePluginItself | OtherValue

  datatype Attribute = Attribute(name: string, kind: AttrKind)

  /** A file found by the walk: the directories below the plugin directory
      and the file name. */
  datatype FileEntry = FileEntry(dirs: seq<string>, filename: string)

  predicate NoPluginBefore(attrs: seq<Attribute>, i: nat)
    requires i <= |attrs|
  {
    forall j :: 0 <= j < i ==> !attrs[j].kind.PluginSubclass?
  }

  function FirstPluginIndex(attrs: seq<Attribute>): (i: nat)
    ensures i <= |attrs| && NoPluginBefore(attrs, i)
    ensures i < |attrs| ==> attrs[i].kind.PluginSubclass?
    decreases |attrs|
  {
    if |attrs| == 0 || attrs[0].kind.PluginSubclass? then 0
    else 1 + FirstPluginIndex(attrs[1..])
  }

  /** `load_plugin`: the first attribute that is a proper plugin subclass, or
      nothing when the module defines none. */
  function LoadPlugin(attrs: seq<Attribute>): (r: Option<PluginClass>)
    ensures r.None? <==> NoPluginBefore(attrs, |attrs|)
    ensures r.Some? ==>
              exists i :: 0 <= i < |attrs| && attrs[i].kind == PluginSubclass(r.value) && NoPluginBefore(attrs, i)
  {
    var i := FirstPluginIndex(attrs);
    if i < |attrs| then Some(attrs[i].kind.plugin) else None
  }

  /** Code-point order on names, the order `dir` sorts attributes by. */
  predicate NameAtMost(a: string, b: string)
    decreases |a|
  {
    |a| == 0 || (|b| > 0 && (a[0] < b[0] || (a[0] == b[0] && NameAtMost(a[1..], b[1..]))))
  }

  lemma NameAtMostReflexive(a: string)
    ensures NameAtMost(a, a)
  {
  }

  predicate SortedByName(attrs: seq<Attribute>) {
    forall i, j :: 0 <= i < j < |attrs| ==> NameAtMost(attrs[i].name, attrs[j].name)
  }

  /** With attributes in `dir` order, the chosen plugin is the one bound to
      the alphabetically first plugin-valued name of the module. */
  lemma LoadPluginPicksFirstName(attrs: seq<Attribute>, p: PluginClass)
    requires SortedByName(attrs)
    requires LoadPlugin(attrs) == Some(p)
    ensures exists i :: 0 <= i < |attrs| && attrs[i].kind == PluginSubclass(p)
              && forall j :: 0 <= j < |attrs| && attrs[j].kind.PluginSubclass? ==> NameAtMost(attrs[i].name, attrs[j].name)
  {
    var i := FirstPluginIndex(attrs);
    forall j | 0 <= j < |attrs| && attrs[j].kind.PluginSubclass?
      ensures NameAtMost(attrs[i].name, attrs[j].name)
    {
      if j == i {
        NameAtMostReflexive(attrs[i].name);
      }
    }
  }

  /** Files considered by the walk: Python sources that are not dunder files. */
  predicate Considered(filename: string) {
    EndsWith(filename, ".py") && !StartsWith(filename, "__")
  }

  /** The file's path relative to the plugin directory. */
  function RelPath(e: FileEntry): string {
    JoinWith(e.dirs + [e.filename], '/')
  }

  /** The module path: the relative path without its last three characters,
      with the path separator replaced by dots. */
  function ModulePath(rel: string): (r: string)
    ensures |rel| >= 3 ==> |r| == |rel| - 3
    ensures |rel| < 3 ==> r == ""
    ensures forall i :: 0 <= i < |r| ==> r[i] == (if rel[i] == '/' then '.' else rel[i])
  {
    ReplaceChar(if |rel| >= 3 then rel[..|rel| - 3] else "", '/', '.')
  }

  /** For a source file `d1/.../dn/stem.py` whose names hold neither slashes
      nor dots, the module path is the dotted name `d1. ... .dn.stem`, and
      splitting it at the dots recovers the directories and the stem. */
  lemma ModulePathOfFile(dirs: seq<string>, stem: string)
    requires forall i :: 0 <= i < |dirs + [stem]| ==> '/' !in (dirs + [stem])[i] && '.' !in (dirs + [stem])[i]
    ensures ModulePath(RelPath(FileEntry(dirs, stem + ".py"))) == Join(dirs + [stem])
    ensures Split(ModulePath(RelPath(FileEntry(dirs, stem + ".py")))) == dirs + [stem]
  {
    var ts := dirs + [stem];
    JoinWithExtendLast(dirs, stem, ".py", '/');
    var rel := RelPath(FileEntry(dirs, stem + ".py"));
    assert rel == JoinWith(ts, '/') + ".py";
    assert rel[..|rel| - 3] == JoinWith(ts, '/');
    ReplaceSeparator(ts, '/', '.');
    SplitJoin(ts);
  }

  /** Modules whose path mentions `internal` anywhere are never imported. */
  predicate Skipped(modulePath: string) {
    Contains(modulePath, "internal")
  }

  /** What one walked file contributes to the plugin table. */
  function CandidateOf(e: FileEntry, attrsOf: string -> seq<Attribute>): (r: Option<PluginClass>)
    ensures r.Some? ==> Considered(e.filename) && !Skipped(ModulePath(RelPath(e)))
    ensures Considered(e.filename) && !Skipped(ModulePath(RelPath(e))) ==>
              r == LoadPlugin(attrsOf(ModulePath(RelPath(e))))
  {
    if !Considered(e.filename) then None
    else
      var path := ModulePath(RelPath(e));
      if Skipped(path) then None else LoadPlugin(attrsOf(path))
  }

  /** Assigns each found plugin under its `name`, in walk order. */
  function Register(found: seq<Option<PluginClass>>): (r: Dict<string, PluginClass>)
    ensures UniqueKeys(r)
    decreases |found|
  {
    if |found| == 0 then []
    else
      var before := Register(found[..|found| - 1]);
      match found[|found| - 1]
      case None => before
      case Some(p) =>
        PutKeepsKeysUnique(before, p.name, p);
        Put(before, p.name, p)
  }

  function Found(entries: seq<FileEntry>, attrsOf: string -> seq<Attribute>): (found: seq<Option<PluginClass>>)
    ensures |found| == |entries|
    ensures forall i :: 0 <= i < |entries| ==> found[i] == CandidateOf(entries[i], attrsOf)
  {
    seq(|entries|, i requires 0 <= i < |entries| => CandidateOf(entries[i], attrsOf))
  }

  /** Every plugin in the table is filed under its own `name`. */
  ghost predicate FiledByName(d: Dict<string, PluginClass>) {
    forall name :: Lookup(d, name).Some? ==> Lookup(d, name).value.name == name
  }

  /** `load_plugins`: a dictionary with one entry per plugin name. */
  function LoadPlugins(entries: seq<FileEntry>, attrsOf: string -> seq<Attribute>): (r: Dict<string, PluginClass>)
    ensures UniqueKeys(r)
    ensures FiledByName(r)
  {
    RegisterFiledByName(Found(entries, attrsOf));
    Register(Found(entries, attrsOf))
  }

  /** Each plugin is assigned under its own name. */
  lemma {:induction false} RegisterFiledByName(found: seq<Option<PluginClass>>)
    ensures FiledByName(Register(found))
    decreases |found|
  {
    if |found| > 0 {
      RegisterFiledByName(found[..|found| - 1]);
      forall name | Lookup(Register(found), name).Some?
        ensures Lookup(Register(found), name).value.name == name
      {
        RegisterLast(found, name);
      }
    }
  }

  predicate Provides(c: Option<PluginClass>, name: string) {
    c.Some? && c.value.name == name
  }

  predicate NoLaterProvider(found: seq<Option<PluginClass>>, name: string, i: nat) {
    forall j :: i < j < |found| ==> !Provides(found[j], name)
  }

  predicate LastProvider(found: seq<Option<PluginClass>>, name: string, p: PluginClass, i: nat) {
    i < |found| && found[i] == Some(p) && p.name == name && NoLaterProvider(found, name, i)
  }

  /** The last found entry decides a name it provides and leaves every other
      name as the earlier entries registered it. */
  lemma RegisterLast(found: seq<Option<PluginClass>>, name: string)
    requires |found| > 0
    ensures Provides(found[|found| - 1], name) ==> Lookup(Register(found), name) == found[|found| - 1]
    ensures !Provides(found[|found| - 1], name) ==>
              Lookup(Register(found), name) == Lookup(Register(found[..|found| - 1]), name)
  {
  }

  lemma {:induction false} RegisteredHasLastProvider(found: seq<Option<PluginClass>>, name: string, p: PluginClass)
    requires Lookup(Register(found), name) == Some(p)
    ensures exists i: nat :: LastProvider(found, name, p, i)
    decreases |found|
  {
    var k := |found| - 1;
    var front := found[..k];
    RegisterLast(found, name);
    if Provides(found[k], name) {
      assert LastProvider(found, name, p, k);
    } else {
      RegisteredHasLastProvider(front, name, p);
      var i: nat :| LastProvider(front, name, p, i);
      assert LastProvider(found, name, p, i);
    }
  }

  lemma {:induction false} LastProviderRegistered(found: seq<Option<PluginClass>>, name: string, p: PluginClass, i: nat)
    requires LastProvider(found, name, p, i)
    ensures Lookup(Register(found), name) == Some(p)
    decreases |found|
  {
    var k := |found| - 1;
    RegisterLast(found, name);
    if i < k {
      var front := found[..k];
      assert !Provides(found[k], name);
      assert LastProvider(front, name, p, i);
      LastProviderRegistered(front, name, p, i);
    }
  }

  /** The plugin table maps a name to exactly the plugin of the last walked
      file that provides that name: a later file shadows an earlier one. */
  lemma LastProviderWins(entries: seq<FileEntry>, attrsOf: string -> seq<Attribute>, name: string, p: PluginClass)
    ensures Lookup(LoadPlugins(entries, attrsOf), name) == Some(p) <==>
              exists i :: 0 <= i < |entries| && CandidateOf(entries[i], attrsOf) == Some(p) && p.name == name
                          && forall j :: i < j < |entries| ==> !Provides(CandidateOf(entries[j], attrsOf), name)
  {
    var found := Found(entries, attrsOf);
    if Lookup(LoadPlugins(entries, attrsOf), name) == Some(p) {
      RegisteredHasLastProvider(found, name, p);
      var i: nat :| LastProvider(found, name, p, i);
      assert forall j :: i < j < |entries| ==> !Provides(CandidateOf(entries[j], attrsOf), name) by {
        forall j | i < j < |entries| ensures !Provides(CandidateOf(entries[j], attrsOf), name) {
          assert !Provides(found[j], name);
        }
      }
    }
    if exists i :: 0 <= i < |entries| && CandidateOf(entries[i], attrsOf) == Some(p) && p.name == name
                   && forall j :: i < j < |entries| ==> !Provides(CandidateOf(entries[j], attrsOf), name) {
      var i :| 0 <= i < |entries| && CandidateOf(entries[i], attrsOf) == Some(p) && p.name == name
               && forall j :: i < j < |entries| ==> !Provides(CandidateOf(entries[j], attrsOf), name);
      assert LastProvider(found, name, p, i);
      LastProviderRegistered(found, name, p, i);
    }
  }

  /** A table entry is always filed under its plugin's own name. */
  lemma PluginFiledUnderItsName(entries: seq<FileEntry>, attrsOf: string -> seq<Attribute>, name: string)
    requires Lookup(LoadPlugins(entries, attrsOf), name).Some?
    ensures Lookup(LoadPlugins(entries, attrsOf), name).value.name == name
  {
    RegisteredHasLastProvider(Found(entries, attrsOf), name, Lookup(LoadPlugins(entries, attrsOf), name).value);
  }

  /** A method-index entry: the function and the class that defines it. */
  datatype MethodEntry = MethodEntry(fn: Member, plugin: PluginClass)

  /** Only public functions are published. */
  predicate Published(m: Member) {
    m.isFunction && !StartsWith(m.name, "_")
  }

  function MethodKey(pluginName: string, m: Member): string {
    pluginName + "." + m.name
  }

  /** Indexes the published members among the first `n` of `p`. */
  function AddMethods(d: Dict<string, MethodEntry>, name: string, p: PluginClass, n: nat): (r: Dict<string, MethodEntry>)
    requires n <= |p.members|
    ensures UniqueKeys(d) ==> UniqueKeys(r)
    ensures AllPublished(d) ==> AllPublished(r)
    decreases n
  {
    if n == 0 then d
    else
      var before := AddMethods(d, name, p, n - 1);
      var m := p.members[n - 1];
      if Published(m) then
        PutPreservesUniqueKeys(before, MethodKey(name, m), MethodEntry(m, p));
        Put(before, MethodKey(name, m), MethodEntry(m, p))
      else before
  }

  /** Every entry of an index names a published function. */
  ghost predicate AllPublished(d: Dict<string, MethodEntry>) {
    forall key :: Lookup(d, key).Some? ==> Published(Lookup(d, key).value.fn)
  }

  function IndexPlugins(plugins: Dict<string, PluginClass>, n: nat): (r: Dict<string, MethodEntry>)
    requires n <= |plugins|
    ensures UniqueKeys(r) && AllPublished(r)
    decreases n
  {
    if n == 0 then []
    else
      var (name, p) := plugins[n - 1];
      AddMethods(IndexPlugins(plugins, n - 1), name, p, |p.members|)
  }

  /** `load_methods`: every published function of every loaded plugin, under
      `"<plugin name>.<function name>"`. */
  function LoadMethods(plugins: Dict<string, PluginClass>): (r: Dict<string, MethodEntry>)
    ensures UniqueKeys(r)
    ensures AllPublished(r)
  {
    IndexPlugins(plugins, |plugins|)
  }

  lemma {:induction false} AddMethodsKeepsKeys(d: Dict<string, MethodEntry>, name: string, p: PluginClass, n: nat, key: string)
    requires n <= |p.members|
    requires Lookup(d, key).Some?
    ensures Lookup(AddMethods(d, name, p, n), key).Some?
    decreases n
  {
    if n > 0 {
      AddMethodsKeepsKeys(d, name, p, n - 1, key);
    }
  }

  lemma {:induction false} AddMethodsComplete(d: Dict<string, MethodEntry>, name: string, p: PluginClass, n: nat, j: nat)
    requires j < n <= |p.members| && Published(p.members[j])
    ensures Lookup(AddMethods(d, name, p, n), MethodKey(name, p.members[j])).Some?
    decreases n
  {
    if j < n - 1 {
      AddMethodsComplete(d, name, p, n - 1, j);
    }
  }

  lemma {:induction false} AddMethodsSound(d: Dict<string, MethodEntry>, name: string, p: PluginClass, n: nat, key: string, e: MethodEntry)
    requires n <= |p.members|
    requires Lookup(AddMethods(d, name, p, n), key) == Some(e)
    ensures || Lookup(d, key) == Some(e)
            || (e.plugin == p && e.fn in p.members && Published(e.fn) && key == MethodKey(name, e.fn))
    decreases n
  {
    if n > 0 {
      var m := p.members[n - 1];
      if !Published(m) || key != MethodKey(name, m) {
        AddMethodsSound(d, name, p, n - 1, key, e);
      }
    }
  }

  lemma {:induction false} IndexPluginsKeepsKeys(plugins: Dict<string, PluginClass>, n: nat, n': nat, key: string)
    requires n <= n' <= |plugins|
    requires Lookup(IndexPlugins(plugins, n), key).Some?
    ensures Lookup(IndexPlugins(plugins, n'), key).Some?
    decreases n'
  {
    if n < n' {
      IndexPluginsKeepsKeys(plugins, n, n' - 1, key);
      var (name, p) := plugins[n' - 1];
      AddMethodsKeepsKeys(IndexPlugins(plugins, n' - 1), name, p, |p.members|, key);
    }
  }

  /** Every published function of every loaded plugin is indexed under the
      plugin's table name. */
  lemma MethodsComplete(plugins: Dict<string, PluginClass>, i: nat, j: nat)
    requires i < |plugins| && j < |plugins[i].1.members|
    requires Published(plugins[i].1.members[j])
    ensures Lookup(LoadMethods(plugins), MethodKey(plugins[i].0, plugins[i].1.members[j])).Some?
  {
    var (name, p) := plugins[i];
    AddMethodsComplete(IndexPlugins(plugins, i), name, p, |p.members|, j);
    IndexPluginsKeepsKeys(plugins, i + 1, |plugins|, MethodKey(name, p.members[j]));
  }

  lemma {:induction false} IndexPluginsSound(plugins: Dict<string, PluginClass>, n: nat, key: string, e: MethodEntry)
    requires n <= |plugins|
    requires Lookup(IndexPlugins(plugins, n), key) == Some(e)
    ensures exists i :: 0 <= i < n && e.plugin == plugins[i].1 && e.fn in plugins[i].1.members
                        && Published(e.fn) && key == MethodKey(plugins[i].0, e.fn)
    decreases n
  {
    var (name, p) := plugins[n - 1];
    AddMethodsSound(IndexPlugins(plugins, n - 1), name, p, |p.members|, key, e);
    if Lookup(IndexPlugins(plugins, n - 1), key) == Some(e) {
      IndexPluginsSound(plugins, n - 1, key, e);
    } else {
      assert plugins[n - 1].1 == p;
    }
  }

  /** Every index entry is a published function of a loaded plugin, filed
      under that plugin's table name. */
  lemma MethodsSound(plugins: Dict<string, PluginClass>, key: string, e: MethodEntry)
    requires Lookup(LoadMethods(plugins), key) == Some(e)
    ensures exists i :: 0 <= i < |plugins| && e.plugin == plugins[i].1 && e.fn in plugins[i].1.members
                        && Published(e.fn) && key == MethodKey(plugins[i].0, e.fn)
  {
    IndexPluginsSound(plugins, |plugins|, key, e);
  }

  /** Private helpers are never callable through the index. */
  lemma PrivateMembersNotIndexed(plugins: Dict<string, PluginClass>, name: string, m: Member)
    requires StartsWith(m.name, "_")
    requires forall i :: 0 <= i < |plugins| ==> plugins[i].0 == plugins[i].1.name && '.' !in plugins[i].0
    ensures Lookup(LoadMethods(plugins), MethodKey(name, m)).None? || '.' in name
  {
    var key := MethodKey(name, m);
    if Lookup(LoadMethods(plugins), key).Some? && '.' !in name {
      var e := Lookup(LoadMethods(plugins), key).value;
      MethodsSound(plugins, key, e);
      var i :| 0 <= i < |plugins| && e.plugin == plugins[i].1 && e.fn in plugins[i].1.members
               && Published(e.fn) && key == MethodKey(plugins[i].0, e.fn);
      KeyDeterminesParts(name, m.name, plugins[i].0, e.fn.name);
    }
  }

  /** `"a.b" == "c.d"` with dot-free `a` and `c` forces `a == c` and `b == d`. */
  lemma KeyDeterminesParts(a: string, b: string, c: string, d: string)
    requires '.' !in a && '.' !in c
    requires a + "." + b == c + "." + d
    ensures a == c && b == d
  {
    var k := a + "." + b;
    var dot := IndexOf(k, '.');
    assert k[|a|] == '.' && k[|c|] == '.';
    assert forall j :: 0 <= j < |a| ==> k[j] == a[j];
    assert forall j :: 0 <= j < |c| ==> k[j] == c[j];
    assert dot == |a| && dot == |c|;
    assert a == k[..|a|] && c == k[..|c|];
    assert b == k[|a| + 1..] && d == k[|c| + 1..];
  }

  /** A module anywhere below a directory whose name mentions `internal` is
      skipped, including names that merely contain the word. */
  lemma InternalModulesSkipped(prefix: string, rest: string)
    ensures Skipped(prefix + "internal" + rest)
    decreases |prefix|
  {
    var s := prefix + "internal" + rest;
    if |prefix| == 0 {
      assert s[..8] == "internal";
    } else {
      InternalModulesSkipped(prefix[1..], rest);
      assert s[1..] == prefix[1..] + "internal" + rest;
    }
  }
}

=== FILE: registry.dfy ===
/** The id-keyed registry shared by both connection-registry versions: a
    dictionary from client id to client, with get-or-create and add-if-absent.
    The `update` hook the source calls on an existing client is a no-op in
    every client class of the repository, so an existing entry is returned
    as stored. */
module Registry {

  /** Get-or-create: returns the registry afterwards and the client for `id`. */
  function GetOrCreate<C>(reg: map<string, C>, id: string, created: C): (r: (map<string, C>, C))
    ensures id in r.0 && r.0[id] == r.1
    ensures r.0.Keys == reg.Keys + {id}
    ensures forall k :: k in reg ==> r.0[k] == reg[k]
    ensures id !in reg ==> r.1 == created
  {
    if id in reg then (reg, reg[id]) else (reg[id := created], created)
  }

  /** Asking again for the same id changes nothing and returns the same client,
      whatever new client is offered the second time. */
  lemma GetOrCreateIdempotent<C>(reg: map<string, C>, id: string, created: C, other: C)
    ensures GetOrCreate(GetOrCreate(reg, id, created).0, id, other) == GetOrCreate(reg, id, created)
  {
  }

  /** Stores `c` under `id` unless an entry is already there. */
  function AddIfAbsent<C>(reg: map<string, C>, id: string, c: C): (r: map<string, C>)
    ensures r.Keys == reg.Keys + {id}
    ensures forall k :: k in reg ==> r[k] == reg[k]
    ensures id !in reg ==> r[id] == c
  {
    if id in reg then reg else reg[id := c]
  }

  /** Adding is get-or-create without the returned client: afterwards a
      lookup of `id` finds the stored entry if there was one and `c`
      otherwise, and adding again changes nothing. */
  lemma AddIfAbsentIsGetOrCreate<C>(reg: map<string, C>, id: string, c: C, other: C)
    ensures AddIfAbsent(reg, id, c) == GetOrCreate(reg, id, c).0
    ensures AddIfAbsent(AddIfAbsent(reg, id, c), id, other) == AddIfAbsent(reg, id, c)
  {
  }
}

=== FILE: subjects.dfy ===
/** Bus subjects: dot-separated token lists, and the subscription matching
    rule of the message bus (`*` matches exactly one token, `>` matches one
    or more trailing tokens, any other token matches itself). */
module Subjects {
  import opened Common

  /** A token that may appear literally in a published subject. */
  predicate ValidToken(t: string) {
    |t| > 0 && '.' !in t && t != "*" && t != ">"
  }

  predicate AllValid(ts: seq<string>) {
    forall i :: 0 <= i < |ts| ==> ValidToken(ts[i])
  }

  function Join(ts: seq<string>): string {
    JoinWith(ts, '.')
  }

  lemma Join3(a: string, b: string, c: string)
    ensures Join([a, b, c]) == a + "." + b + "." + c
  {
    assert [a, b, c][1..] == [b, c];
    assert [b, c][1..] == [c];
    assert JoinWith([b, c], '.') == b + "." + c;
    assert JoinWith([a, b, c], '.') == a + "." + (b + "." + c);
  }

  lemma Join4(a: string, b: string, c: string, d: string)
    ensures Join([a, b, c, d]) == a + "." + b + "." + c + "." + d
  {
    assert [a, b, c, d][1..] == [b, c, d];
    Join3(b, c, d);
    assert JoinWith([a, b, c, d], '.') == a + "." + (b + "." + c + "." + d);
  }

  /** Index of the first `c` in `s`. */
  function IndexOf(s: string, c: char): (i: nat)
    requires c in s
    ensures i < |s| && s[i] == c
    ensures forall j :: 0 <= j < i ==> s[j] != c
  {
    if s[0] == c then 0 else 1 + IndexOf(s[1..], c)
  }

  /** The tokens of a subject. */
  function Split(s: string): (ts: seq<string>)
    ensures |ts| >= 1
    decreases |s|
  {
    if '.' in s then
      var i := IndexOf(s, '.');
      [s[..i]] + Split(s[i + 1..])
    else [s]
  }

  /** Splitting a joined subject gives back its tokens. */
  lemma {:induction false} SplitJoin(ts: seq<string>)
    requires |ts| >= 1
    requires forall i :: 0 <= i < |ts| ==> '.' !in ts[i]
    ensures Split(Join(ts)) == ts
  {
    if |ts| == 1 {
      assert Join(ts) == ts[0];
    } else {
      var rest := Join(ts[1..]);
      var s := ts[0] + "." + rest;
      assert Join(ts) == s;
      assert s[|ts[0]|] == '.';
      assert forall j :: 0 <= j < |ts[0]| ==> s[j] == ts[0][j];
      var i := IndexOf(s, '.');
      assert i == |ts[0]|;
      assert s[..i] == ts[0];
      assert s[i + 1..] == rest;
      SplitJoin(ts[1..]);
    }
  }

  /** The bus's subscription matching on token lists. */
  predicate Matches(pattern: seq<string>, subject: seq<string>)
    decreases |pattern|
  {
    if |pattern| == 0 then |subject| == 0
    else if pattern[0] == ">" then |subject| >= 1
    else |subject| > 0 && (pattern[0] == "*" || pattern[0] == subject[0])
         && Matches(pattern[1..], subject[1..])
  }

  /** A subscription on `pattern` receives a publication on `subject`. */
  predicate Receives(pattern: string, subject: string) {
    Matches(Split(pattern), Split(subject))
  }

  /** A pattern without wildcards receives exactly the subjects equal to it
      token by token. */
  lemma {:induction false} LiteralMatchesOnlyItself(p: seq<string>, s: seq<string>)
    requires AllValid(p)
    ensures Matches(p, s) <==> p == s
  {
    if |p| == 0 {
    } else {
      assert ValidToken(p[0]);
      assert AllValid(p[1..]) by {
        forall i | 0 <= i < |p[1..]| ensures ValidToken(p[1..][i]) {
          assert p[1..][i] == p[i + 1];
        }
      }
      if |s| > 0 {
        LiteralMatchesOnlyItself(p[1..], s[1..]);
        if p == s {
          assert p[1..] == s[1..];
        }
        if p[0] == s[0] && p[1..] == s[1..] {
          assert p == [p[0]] + p[1..];
          assert s == [s[0]] + s[1..];
        }
      }
    }
  }

  /** A pattern of literal tokens followed by `*` receives exactly the
      subjects that extend those tokens by one more token. */
  lemma {:induction false} TrailingStarMatches(prefix: seq<string>, s: seq<string>)
    requires AllValid(prefix)
    ensures Matches(prefix + ["*"], s) <==> |s| == |prefix| + 1 && s[..|prefix|] == prefix
  {
    var p := prefix + ["*"];
    if |prefix| == 0 {
      assert p == ["*"];
    } else {
      assert ValidToken(prefix[0]);
      assert p[0] == prefix[0];
      assert p[1..] == prefix[1..] + ["*"];
      assert AllValid(prefix[1..]) by {
        forall i | 0 <= i < |prefix[1..]| ensures ValidToken(prefix[1..][i]) {
          assert prefix[1..][i] == prefix[i + 1];
        }
      }
      if |s| > 0 {
        TrailingStarMatches(prefix[1..], s[1..]);
        if |s| == |prefix| + 1 && s[..|prefix|] == prefix {
          assert s[1..][..|prefix[1..]|] == s[..|prefix|][1..];
        }
        if s[0] == prefix[0] && |s[1..]| == |prefix[1..]| + 1 && s[1..][..|prefix[1..]|] == prefix[1..] {
          assert s[..|prefix|] == [s[0]] + s[1..][..|prefix[1..]|];
          assert prefix == [prefix[0]] + prefix[1..];
        }
      }
    }
  }
  /** A subscription on a literal subject receives exactly the publications
      on that same subject. */
  lemma {:induction false} LiteralReceives(p: seq<string>, s: seq<string>)
    requires |p| >= 1 && AllValid(p)
    requires |s| >= 1 && forall i :: 0 <= i < |s| ==> '.' !in s[i]
    ensures Receives(Join(p), Join(s)) <==> p == s
  {
    SplitJoin(p);
    SplitJoin(s);
    LiteralMatchesOnlyItself(p, s);
  }

  /** A subscription on literal tokens followed by `*` receives exactly the
      publications whose subject extends those tokens by one token. */
  lemma {:induction false} StarReceives(prefix: seq<string>, s: seq<string>)
    requires AllValid(prefix)
    requires |s| >= 1 && forall i :: 0 <= i < |s| ==> '.' !in s[i]
    ensures Receives(Join(prefix + ["*"]), Join(s)) <==> |s| == |prefix| + 1 && s[..|prefix|] == prefix
  {
    var p := prefix + ["*"];
    forall i | 0 <= i < |p| ensures '.' !in p[i] {
      if i < |prefix| {
        assert ValidToken(prefix[i]);
      }
    }
    SplitJoin(p);
    SplitJoin(s);
    TrailingStarMatches(prefix, s);
  }
}

=== FILE: transport_registry.dfy ===
/** The transport tier's connection registry: one client record per implant
    id with a status, the time of its last heartbeat and an outbound queue;
    the heartbeat sweep; and the handling of one inbound implant message,
    which answers heartbeats locally and flushes the queue piggy-backed on
    the reply. Clock readings are passed in as `now`. */
module TransportRegistry {
  import opened Common
  import Registry

  const HeartbeatInterval: int := 2
  const HeartbeatTimeout: int := HeartbeatInterval * 5

  datatype Status = Connected | Disconnected

  datatype Client = Client(id: string, status: Status, lastHeartbeat: int, queue: seq<Envelope>)

  type Clients = map<string, Client>

  /** The sweep treats a client as silent once a full timeout has passed
      since its last heartbeat. */
  predicate Silent(c: Client, now: int) {
    now - c.lastHeartbeat >= HeartbeatTimeout
  }

  lemma TimeoutIsFiveIntervals()
    ensures HeartbeatTimeout == 10 && HeartbeatTimeout == 5 * HeartbeatInterval
  {
  }

  /** A client first seen at `now`: connected, nothing queued, and not silent
      for a whole timeout. */
  function NewClient(id: string, now: int): (c: Client)
    ensures c.id == id && c.status == Connected && c.queue == []
    ensures forall t :: Silent(c, t) <==> t >= now + HeartbeatTimeout
  {
    Client(id, Connected, now, [])
  }

  /** A heartbeat revives the client and restarts its silence window; the id
      and the queue are untouched. */
  function HandleHeartbeat(c: Client, now: int): (r: Client)
    ensures r.id == c.id && r.queue == c.queue
    ensures r.status == Connected
    ensures forall t :: Silent(r, t) <==> t >= now + HeartbeatTimeout
  {
    c.(status := Connected, lastHeartbeat := now)
  }

  /** Appends one message to the client's queue, after everything already
      queued. */
  function EnqueueOnClient(c: Client, m: Envelope): (r: Client)
    ensures r.id == c.id && r.status == c.status && r.lastHeartbeat == c.lastHeartbeat
    ensures |r.queue| == |c.queue| + 1
    ensures r.queue[..|c.queue|] == c.queue && r.queue[|c.queue|] == m
  {
    c.(queue := c.queue + [m])
  }

  /** The queue the registry holds for `id`, empty for an unknown id. */
  function QueueOf(clients: Clients, id: string): seq<Envelope> {
    if id in clients then clients[id].queue else []
  }

  /** `ClientManager.get_client`: the stored client when there is one,
      otherwise a new one created at `now`. */
  function GetClient(clients: Clients, id: string, now: int): (r: (Clients, Client))
    ensures id in r.0 && r.0[id] == r.1
    ensures r.0.Keys == clients.Keys + {id}
    ensures forall k :: k in clients ==> r.0[k] == clients[k]
    ensures id !in clients ==> r.1 == NewClient(id, now)
  {
    Registry.GetOrCreate(clients, id, NewClient(id, now))
  }

  /** `ClientManager.add_client`: never overwrites an existing entry. */
  function AddClient(clients: Clients, c: Client): (r: Clients)
    ensures r.Keys == clients.Keys + {c.id}
    ensures forall k :: k in clients ==> r[k] == clients[k]
    ensures c.id !in clients ==> r[c.id] == c
  {
    Registry.AddIfAbsent(clients, c.id, c)
  }

  /** A client added under a new id is what the next lookup of that id
      returns, unchanged and without creating another; adding under a known
      id changes nothing. */
  lemma AddedClientIsFound(clients: Clients, c: Client, now: int)
    ensures c.id !in clients ==> GetClient(AddClient(clients, c), c.id, now) == (AddClient(clients, c), c)
    ensures c.id in clients ==> AddClient(clients, c) == clients
  {
  }

  /** `ClientManager.enqueue_message`: creates the client if needed, then
      appends the message to its queue; no other client changes. */
  function Enqueue(clients: Clients, id: string, m: Envelope, now: int): (r: Clients)
    ensures r.Keys == clients.Keys + {id}
    ensures r[id].queue == QueueOf(clients, id) + [m]
    ensures id in clients ==> r[id].status == clients[id].status
                              && r[id].lastHeartbeat == clients[id].lastHeartbeat
    ensures id !in clients ==> r[id].status == Connected && r[id].lastHeartbeat == now
    ensures forall k :: k in clients && k != id ==> r[k] == clients[k]
  {
    var (reg, c) := GetClient(clients, id, now);
    reg[id := EnqueueOnClient(c, m)]
  }

  /** `ClientManager.handle_heartbeat`: creates the client if needed, then
      records the heartbeat. */
  function RegistryHeartbeat(clients: Clients, id: string, now: int): (r: Clients)
    ensures r.Keys == clients.Keys + {id}
    ensures r[id].status == Connected && r[id].lastHeartbeat == now
    ensures r[id].queue == QueueOf(clients, id)
    ensures forall k :: k in clients && k != id ==> r[k] == clients[k]
  {
    var (reg, c) := GetClient(clients, id, now);
    reg[id := HandleHeartbeat(c, now)]
  }

  /** What one pass of the heartbeat sweep leaves behind: the registry and the
      ids handed to the disconnect callback. */
  datatype SweepResult = SweepResult(clients: Clients, notified: set<string>)

  function SweepOne(c: Client, now: int): Client {
    if Silent(c, now) then c.(status := Disconnected) else c
  }

  /** One iteration of `track_heartbeats`: silent clients become disconnected,
      the others are untouched, and the disconnect callback fires exactly for
      the silent clients that were still connected. */
  function Sweep(clients: Clients, now: int): (r: SweepResult)
    ensures r.clients.Keys == clients.Keys
    ensures forall id :: id in clients && !Silent(clients[id], now) ==> r.clients[id] == clients[id]
    ensures forall id :: id in clients && Silent(clients[id], now) ==>
              r.clients[id] == clients[id].(status := Disconnected)
    ensures forall id :: id in r.notified <==>
              id in clients && Silent(clients[id], now) && clients[id].status == Connected
  {
    SweepResult(
      map id | id in clients :: SweepOne(clients[id], now),
      set id | id in clients && Silent(clients[id], now) && clients[id].status == Connected)
  }

  /** The disconnect callback fires once per connected-to-disconnected edge:
      a client notified by one sweep is not notified again by any later sweep
      unless a heartbeat intervenes. */
  lemma SweepNotifiesOncePerTransition(clients: Clients, now: int, later: int)
    ensures Sweep(Sweep(clients, now).clients, later).notified !! Sweep(clients, now).notified
  {
    var first := Sweep(clients, now);
    forall id | id in first.notified
      ensures id !in Sweep(first.clients, later).notified
    {
      assert first.clients[id].status == Disconnected;
    }
  }

  /** A client that has just sent a heartbeat survives every sweep within the
      timeout, and the callback does not fire for it. */
  lemma HeartbeatKeepsClientAlive(clients: Clients, id: string, t: int, s: int)
    requires s < t + HeartbeatTimeout
    ensures var swept := Sweep(RegistryHeartbeat(clients, id, t), s);
            swept.clients[id].status == Connected && id !in swept.notified
  {
    var reg := RegistryHeartbeat(clients, id, t);
    assert !Silent(reg[id], s);
  }

  /** With sweeps every interval starting no later than the deadline, a client
      silent since `c.lastHeartbeat` is caught by a sweep at least a timeout
      and less than a timeout plus one interval after its last heartbeat. */
  lemma SilentClientCaughtWithinTwelve(c: Client, firstSweep: int) returns (k: nat)
    requires firstSweep <= c.lastHeartbeat + HeartbeatTimeout
    ensures var s := firstSweep + k * HeartbeatInterval;
            c.lastHeartbeat + 10 <= s < c.lastHeartbeat + 12 && Silent(c, s)
            && SweepOne(c, s).status == Disconnected
  {
    var gap := c.lastHeartbeat + HeartbeatTimeout - firstSweep;
    k := (gap + 1) / 2;
  }

  /** The result of `handle_message`: the registry afterwards, the immediate
      reply, and the message handed to the `on_msg` callback (forwarded to the
      bus). */
  datatype Handled = Handled(clients: Clients, reply: Option<Envelope>, forwarded: Option<Envelope>)

  const PingData := JStr("ping")
  const PongData := JStr("pong")

  /** `handle_message`: the reserved `heartbeat` operation is answered locally
      with `pong` under the same id and never forwarded (the `ping` payload is
      not enforced); every other operation is forwarded unchanged and gets no
      immediate reply. */
  function HandleMessage(clients: Clients, clientId: string, m: Envelope, now: int): (r: Handled)
    ensures r.reply.Some? <==> m.operation == "heartbeat"
    ensures r.forwarded.Some? <==> m.operation != "heartbeat"
    ensures r.reply.Some? ==> r.reply.value == Envelope("heartbeat", PongData, m.id)
    ensures r.forwarded.Some? ==> r.forwarded.value == m
    ensures m.operation == "heartbeat" ==>
              clientId in r.clients && r.clients[clientId].status == Connected
              && r.clients[clientId].lastHeartbeat == now
    ensures m.operation != "heartbeat" ==> r.clients == clients
    ensures forall k :: k in clients ==> k in r.clients && r.clients[k].queue == clients[k].queue
  {
    if m.operation == "heartbeat" then
      Handled(RegistryHeartbeat(clients, clientId, now), Some(Envelope("heartbeat", PongData, m.id)), None)
    else
      Handled(clients, None, Some(m))
  }

  /** The heartbeat's payload is never checked: a heartbeat carrying
      anything but `ping` is answered and recorded exactly like one carrying
      `ping`. */
  lemma HeartbeatPayloadNotChecked(clients: Clients, clientId: string, m: Envelope, now: int)
    requires m.operation == "heartbeat"
    ensures HandleMessage(clients, clientId, m, now)
              == HandleMessage(clients, clientId, m.(data := PingData), now)
  {
  }

  function ReplyList(reply: Option<Envelope>): (r: seq<Envelope>)
    ensures |r| <= 1
  {
    if reply.Some? then [reply.value] else []
  }

  /** What `prepare_response` produces: the registry afterwards, the list sent
      back to the implant and the message forwarded to the bus, if any. */
  datatype Prepared = Prepared(clients: Clients, out: seq<Envelope>, forwarded: Option<Envelope>)

  /** `Client.prepare_response` for the registered client `clientId`: a payload
      that does not validate raises before anything happens (`None`);
      otherwise the immediate reply (when there is one) is followed by the
      whole queue in order, and the queue is left empty. */
  function PrepareResponse(clients: Clients, clientId: string, parsed: Option<Envelope>, now: int)
    : (r: Option<Prepared>)
    requires clientId in clients
    ensures parsed.None? <==> r.None?
    ensures r.Some? ==>
              var m := parsed.value;
              var p := r.value;
              && p.out == ReplyList(HandleMessage(clients, clientId, m, now).reply) + clients[clientId].queue
              && clientId in p.clients && p.clients[clientId].queue == []
              && p.clients.Keys == clients.Keys
              && (forall k :: k in clients && k != clientId ==> p.clients[k] == clients[k])
              && (m.operation == "heartbeat" <==> |p.out| == |clients[clientId].queue| + 1)
  {
    match parsed
    case None => None
    case Some(m) =>
      var h := HandleMessage(clients, clientId, m, now);
      var c := h.clients[clientId];
      Some(Prepared(h.clients[clientId := c.(queue := [])], ReplyList(h.reply) + c.queue, h.forwarded))
  }

  /** Queued operator messages are flushed on the implant's next turn, in the
      order they were queued and after the immediate reply; a second turn
      straight after sends back only its own reply. */
  lemma QueuedMessagesFlushedOnNextTurn(clients: Clients, id: string, q: Envelope, m: Envelope, m2: Envelope, now: int)
    ensures var queued := Enqueue(clients, id, q, now);
            var p := PrepareResponse(queued, id, Some(m), now);
            && p.Some?
            && p.value.out == ReplyList(HandleMessage(queued, id, m, now).reply) + QueueOf(clients, id) + [q]
            && PrepareResponse(p.value.clients, id, Some(m2), now).value.out
               == ReplyList(HandleMessage(p.value.clients, id, m2, now).reply)
  {
  }
}
